=== FILE: README.md ===
# Laravel task tree: a Dafny model

This project models the core of a Laravel to-do API in Dafny. Users own tasks; each task carries a status
(`todo` or `done`), a priority from 1 to 5, a title and a description. A single request can create a
whole tree of tasks. Relationship rows `(ancestor, descendant, depth)` link each task to its parent.

The model is functional. The database is the value
`Db(users, tasks: map<TaskId, Task>, edges: set<Edge>, nextId)`:
- `tasks` maps auto-increment ids to task rows;
- `edges` is the `task_relationships` table;
- `nextId` is the next id the auto-increment counter will issue.

Every endpoint is a function from a database to a new database plus an `Outcome`. `Wf` is the invariant
that every endpoint keeps:
- every stored id was issued by the counter;
- both foreign keys of every row point at stored tasks;
- the rows form a forest: each row runs from an older id to a newer one, each task has at most one
  parent row, and depths are non-negative and grow by one per level.

Modules, one per source component:

- `TaskRules` (`rules.dfy`): the validation rules, as a function from a payload (a map from keys to
  JSON values) to either the four parsed fields or the failing keys.
- `Relationships` (`relationships.dfy`): the relationship table. It covers the primary key, cascading
  deletes, and the forest predicates together with their consequences (no cycles, depth equals nesting
  level).
- `TaskModel` (`model.dfy`): the `Task` model. It covers:
  - creating a task from the fillable fields and updating those fields;
  - `childTasks` and `parentTasks`;
  - `getNestedChildren` as a recursive descent;
  - deleting a task together with its relationship rows.
- `Permissions` (`permissions.dfy`): the permission service. `setUser` stores a user, and `check`
  compares a task's owner with that user.
- `TaskService` (`service.dfy`): `saveTasks` and `saveChildren`. The outcome is described through a
  reference definition:
  - `Prune` keeps the specs whose payload and every ancestor's payload are valid;
  - `Flatten` lists the kept fields in depth-first pre-order;
  - `Created` gives the tasks those fields become;
  - `Layout` gives the rows from each created task's immediate parent.
- `TaskServiceProperties` (`service_props.dfy`): what one call of `saveTasks` guarantees: ownership,
  count, shape, depth, and the reach of `getNestedChildren`.
- `Query` (`query.dfy`): the listing filter of `index` and its sort.
- `Controller` (`controller.dfy`) and `ControllerProperties` (`controller_props.dfy`): the five endpoints
  and the properties that hold across them.

**The relationship table is an adjacency forest, not a closure table.** The table's name and its
`(ancestor, descendant, depth)` columns are those of a closure table, which would hold a row to every
ancestor with depth equal to the path length. The code does something else.
- `saveChildren` attaches each child only to its immediate parent (app/Services/TaskService.php:87).
- The stored `depth` is the recursion level, 0 for the root's direct children
  (app/Services/TaskService.php:71, 89).

This model follows the code. `SaveTasksOneParent` proves that each created child has exactly one parent
row. `SaveTasksDepthIsLevel` proves that depth is the nesting level starting at 0.

Every payload in the model is a request body as the controller receives it, and every `Query.Request`
holds the query-string inputs as `index` reads them. The framework's default middleware has already run
on both: `TrimStrings` trims every string, and `ConvertEmptyStringsToNull` turns what is left empty into
null, which the model reads as a missing input. `TaskRules.Clean` models that pair of steps, and
`TaskRules.PaddedFieldsTrimmed` shows its effect on validation. The middleware stack itself
(app/Http/Kernel.php) is not part of this model.

Clocks are not modelled: the creation time is a parameter, `now`, shared by every task created in one
call. Users are ids; `users` holds the ids that `User::findOrFail` finds.

## Model

| member | source | states |
|---|---|---|
| TaskRules.Validate | app/Constants/TaskConstants.php:7-12 | A payload passes exactly when all four rules hold. On success every rule key is present and the fields are in range. Each parsed field is exactly the value the middleware hands on, except for the priority. PHP's integer filter reads a whole-number float such as 3.0 as that integer, and `true` as 1, and the priority is parsed accordingly. On failure the result is a non-empty list of exactly the keys whose rule fails. |
| TaskRules.FailingKeys | app/Constants/TaskConstants.php:7-12 | The reported keys are exactly the rule keys whose rule fails; the list is empty exactly when the payload is valid. |
| TaskRules.ValidUnfold | app/Constants/TaskConstants.php:7-12 | Validity is the conjunction of the status, priority, title and description rules. |
| TaskRules.ValidateRoundTrip | app/Constants/TaskConstants.php:7-12 | Any in-range fields, sent as a payload, validate back to the same fields. |
| TaskRules.ValidateRejectsBadFields | app/Constants/TaskConstants.php:9-11 | A priority outside 1..5 or a blank title or description is rejected, and a valid status is not blamed. |
| TaskRules.Only | app/Services/TaskService.php:42 | `only(keys)` keeps exactly the payload keys that are listed, with their values unchanged. |
| TaskRules.ParsedFieldsAreOnly | app/Services/TaskService.php:42 | For a valid payload, the parsed fields are exactly the payload restricted to the four rule keys, as the task row stores them (a `true` priority as 1, a whole-number float as that integer). |
| TaskRules.TruePriorityIsOne | app/Constants/TaskConstants.php:9 | A `true` priority passes the integer, minimum and maximum rules and is stored as 1; a `false` one fails with `priority` alone. |
| TaskRules.WholeFloatPriority | app/Constants/TaskConstants.php:9 | A whole-number float priority such as 3.0 passes and is stored as that integer; 2.5 fails with `priority` alone. |
| TaskRules.PaddedFieldsTrimmed | app/Constants/TaskConstants.php:8-11 | A status, title and description padded with blanks on either side reach the rules trimmed: the body validates, and is stored, exactly as the unpadded fields. |
| TaskRules.Clean | app/Http/Controllers/API/TaskController.php:150 | The framework middleware (`TrimStrings`, then `ConvertEmptyStringsToNull`) runs on every value before the controller reads the body. A string is trimmed of PHP's default `trim` characters; a string left empty becomes null; a kept string is non-empty with no trim character at either end; values other than strings pass through unchanged. |
| TaskRules.CleanPayload | app/Http/Controllers/API/TaskController.php:150-157 | The middleware keeps every key of the body and cleans each value on its own, as `TaskRules.Clean` describes. |
| TaskRules.ValidateReadsOnlyRuleKeys | app/Constants/TaskConstants.php:7-12 | Two payloads that agree on the four rule keys get the same verdict, the same failing keys and the same fields. |
| TaskRules.ExtraKeyIgnored | app/Services/TaskService.php:74 | Adding `children` or any other key outside the rules never changes validation. |
| TaskRules.PriorityBoundaries | app/Constants/TaskConstants.php:9 | Priorities 1 and 5 are accepted; 0 and 6 are rejected, with `priority` as the only failing key. |
| TaskRules.BlankTextRejected | app/Constants/TaskConstants.php:10-11 | An all-whitespace title and an empty description both fail `required`. |
| TaskRules.UnknownStatusRejected | app/Constants/TaskConstants.php:8 | A status other than `todo` or `done` fails, with `status` as the only failing key. |
| TaskRules.EmptyPayloadRejected | app/Constants/TaskConstants.php:7-12 | All four keys are required: an empty body fails every rule. |
| Relationships.ForestKeepsPrimaryKey | database/migrations/2023_06_14_182926_create_task_relationships_table.php:18 | A forest never holds two rows for one (ancestor, descendant) pair, so the composite primary key is never violated. |
| Relationships.NoCycles | app/Services/TaskService.php:82-89 | Every row runs from an older task to a newer one, so every chain of rows climbs strictly: no task is its own ancestor. |
| Relationships.DepthIsLevel | app/Services/TaskService.php:87-89 | Take a chain of rows starting at a task whose own rows carry depth 0. The row reaching the k-th task down carries depth k - 1. |
| Relationships.Attach | app/Services/TaskService.php:87 | `attach` adds exactly the one row with the given pivot depth and keeps every existing row. |
| Relationships.Cascade | database/migrations/2023_06_14_182926_create_task_relationships_table.php:19-20 | The cascade removes exactly the rows that name the deleted task at either end. Every other row stays. |
| Relationships.CascadeKeepsForest | database/migrations/2023_06_14_182926_create_task_relationships_table.php:19-20 | The cascade keeps the forest shape. |
| TaskModel.NewTask | app/Models/Task.php:12 | A created task carries exactly the four fillable fields, the given owner and the creation time. |
| TaskModel.WithFields | app/Http/Controllers/API/TaskController.php:156-158 | An update of the four fields leaves the owner and the creation time unchanged. |
| TaskModel.WithFieldsThenFieldsOf | app/Models/Task.php:12 | Reading a task's fields after writing them gives back exactly what was written. |
| TaskModel.FieldsOfThenWithFields | app/Models/Task.php:12 | Writing back a task's own fields changes nothing. |
| TaskModel.WithFieldsTwice | app/Http/Controllers/API/TaskController.php:156-158 | A second update overrides the first entirely. |
| TaskModel.ChildTasks | app/Models/Task.php:21-26 | `(c, d)` is among `p`'s child tasks exactly when a row `(p, c, d)` exists. |
| TaskModel.ParentTasks | app/Models/Task.php:14-19 | `(p, d)` is among `c`'s parent tasks exactly when a row `(p, c, d)` exists. |
| TaskModel.ChildParentDuality | app/Models/Task.php:14-26 | `c` is a child of `p` at depth `d` exactly when `p` is a parent of `c` at depth `d`. |
| TaskModel.SoleParent | app/Models/Task.php:14-19 | In a forest, a task's parent tasks are exactly the ancestor and depth of the one row into it. |
| TaskModel.Children | app/Models/Task.php:21-26 | The child ids of `p` are exactly the ids some row links from `p`. |
| TaskModel.NestedChildren | app/Models/Task.php:28-31 | Descending through `childTasks` reaches every direct child and only ids newer than the start. |
| TaskModel.NestedStep | app/Models/Task.php:28-31 | The tasks reached by descending are closed under one more step to a child. |
| TaskModel.NestedSound | app/Models/Task.php:28-31 | Every id descent returns lies at the end of a chain of rows from the start. |
| TaskModel.NestedComplete | app/Models/Task.php:28-31 | The end of every chain of rows from a task is returned by descent from it. |
| TaskModel.NestedChildrenIsReach | app/Models/Task.php:28-31 | `getNestedChildren(p)` holds `d` exactly when some chain of rows leads down from `p` to `d`. |
| TaskModel.DeleteTask | app/Http/Controllers/API/TaskController.php:127 | Deleting removes exactly the task's key and leaves every other task as it was. Its rows go by the cascade; users and the counter are untouched. |
| TaskModel.DeleteKeepsWf | database/migrations/2023_06_14_182926_create_task_relationships_table.php:19-20 | After a delete, no row points at a missing task and the forest shape holds. |
| TaskModel.DeleteKeepsChildren | database/migrations/2023_06_14_182926_create_task_relationships_table.php:19-20 | The deleted task's former children survive as tasks, now with no parent row. |
| Permissions.SetUser | app/Services/PermissionService.php:20-23 | `setUser` stores the given user and returns it. |
| Permissions.Check | app/Services/PermissionService.php:31-34 | With no user stored, the check raises an error instead of answering. Otherwise it answers true exactly when the stored user owns the task. |
| Permissions.CheckAfterSetUser | app/Services/PermissionService.php:20-34 | After `setUser(u)` the check always answers, and a task passes exactly when `u` owns it, whatever was stored before. |
| Permissions.LastSetUserWins | app/Services/PermissionService.php:20-23 | Of two `setUser` calls the last one decides every later check. |
| Permissions.UnsetRaises | app/Services/PermissionService.php:31-34 | Before any `setUser` the stored user is null, and checking any task raises an error. |
| Permissions.CheckReadsOnlyOwner | app/Services/PermissionService.php:31-34 | Tasks with the same owner get the same answer; nothing else about a task matters. |
| TaskService.SaveChildren | app/Services/TaskService.php:71-91 | The result holds `db`'s tasks plus one new task per pruned child, in pre-order from the next id, all owned by the user. It also holds `db`'s rows plus one row per created child from its immediate parent at its nesting depth. Nothing else changes. |
| TaskService.SaveTasks | app/Services/TaskService.php:30-57 | An invalid root writes nothing and returns its failing keys. A valid root is stored at the next id with exactly its fields and the user as owner. The counter then advances by one plus the number of children that survive pruning. |
| TaskService.SaveTasksWrites | app/Services/TaskService.php:42-51 | A successful call adds the root plus the created children's tasks to the tasks map, and adds the children's layout rows below the root to the edges. |
| TaskService.LayoutShaped | app/Services/TaskService.php:82-89 | Each new id receives exactly one row, coming from the parent or from an earlier new id. Rows from the parent carry the starting depth, and each deeper row carries one more. |
| TaskServiceProperties.SaveTasksRejects | app/Services/TaskService.php:33-40 | An invalid root leaves the database as it was and reports the failing keys. |
| TaskServiceProperties.SaveTasksCreated | app/Services/TaskService.php:42-89 | After a successful call:<br>• the stored ids are the old ones plus a contiguous block starting with the root;<br>• old tasks are unchanged;<br>• the n-th created child has exactly its payload's fields;<br>• every created task belongs to the acting user. |
| TaskServiceProperties.SaveTasksCount | app/Services/TaskService.php:73-89 | A call stores 1 + (number of valid children whose ancestors are all valid) new tasks. |
| TaskServiceProperties.NewRowsShaped | app/Services/TaskService.php:87 | The rows a call adds form a forest that stays inside the block of new ids. |
| TaskServiceProperties.SaveTasksKeepsWf | database/migrations/2023_06_14_182926_create_task_relationships_table.php:18-20 | A call keeps the database invariant: the primary key, both foreign keys and the forest shape. |
| TaskServiceProperties.SaveTasksHanging | app/Services/TaskService.php:87-89 | Every task created below the root hangs from a row whose ancestor was created in the same call. |
| TaskServiceProperties.SaveTasksOneParent | app/Services/TaskService.php:87 | After a call the root has no parent row. Every created child has exactly one parent row, from a task created earlier in the call. |
| TaskServiceProperties.SaveTasksDepthIsLevel | app/Services/TaskService.php:71-89 | On any chain of rows from the created root, the row reaching the k-th task down carries depth k - 1. |
| TaskServiceProperties.ReachHanging | app/Models/Task.php:28-31 | Descending from a task reaches every id that hangs below it. |
| TaskServiceProperties.SaveTasksNestedChildren | app/Models/Task.php:28-31 | `getNestedChildren` on the created root reaches exactly the other tasks the call created. |
| TaskServiceProperties.InvalidChildSkipped | app/Services/TaskService.php:73-78 | An invalid child is skipped together with its whole subtree, and its later siblings are processed as if it were absent. |
| TaskServiceProperties.PruneKeepsValid | app/Services/TaskService.php:73-89 | A tree of specs whose payloads are all valid is kept whole: no node is dropped and every field is kept. |
| TaskServiceProperties.RootWithOneChild | app/Services/TaskService.php:46-89 | A root with one valid child creates two tasks and one row, from the root to the child at depth 0. |
| Query.ContainsIffOccurs | app/Http/Controllers/API/TaskController.php:67-69 | The title filter's containment holds exactly when the needle occurs at some position of the title. |
| Query.EmptyNeedleEverywhere | app/Http/Controllers/API/TaskController.php:67-69 | An empty needle is contained in every title. |
| Query.Lower | app/Http/Controllers/API/TaskController.php:72 | `strtolower` keeps the length and lower-cases each character independently. |
| Query.LowerIdempotent | app/Http/Controllers/API/TaskController.php:72 | Lower-casing twice is the same as lower-casing once. |
| Query.DirectionOf | app/Http/Controllers/API/TaskController.php:72 | The direction is descending exactly when a `sort_type` is given and lower-cases to `desc`; otherwise it is ascending. The same holds when `desc` is read as a spelling in any mix of ASCII cases, stated character by character without `strtolower`. |
| Query.DirectionExamples | app/Http/Controllers/API/TaskController.php:72 | `DESC`, `Desc` and `desc` sort descending; a missing value, `ASC` and `down` sort ascending. |
| Query.SortPlan | app/Http/Controllers/API/TaskController.php:71-79 | A listing is ordered exactly when a truthy `sort_field` is `created_at` or `priority`. It is ordered by that column, in the chosen direction. |
| Query.Matches | app/Http/Controllers/API/TaskController.php:56-69 | A task is listed exactly when the user owns it and it passes every filter that is given: its status equals a truthy `status`; its priority lies between `lo` and `hi` inclusive when a range is given; a truthy `title` occurs at some position of its title. A range with `lo` above `hi` lists nothing. |
| Query.NoFiltersOwnerOnly | app/Http/Controllers/API/TaskController.php:56-69 | With no inputs, a task is listed exactly when the route user owns it. |
| Query.InsertSorted | app/Http/Controllers/API/TaskController.php:75-77 | Inserting a row into a sorted listing keeps it sorted. |
| Query.SortBy | app/Http/Controllers/API/TaskController.php:75-77 | `orderBy` returns the same rows, as a multiset, with every earlier key in order before every later key. |
| Controller.Selected | app/Http/Controllers/API/TaskController.php:56-69 | A row is selected exactly when it is a stored task owned by the user that passes every given filter. |
| Controller.Acting | app/Http/Controllers/API/TaskController.php:39 | The permission service every action checks against holds the route's user: its check answers, for every task, whether that user owns it. |
| Controller.Index | app/Http/Controllers/API/TaskController.php:48-84 | `index` writes nothing and answers not-found exactly when the user is unknown. Otherwise it lists each matching task exactly once, with its id, and nothing else. With no inputs that means all of the user's tasks; with a sort plan the listing is sorted. |
| Controller.Store | app/Http/Controllers/API/TaskController.php:93-104 | With an unknown user, `store` answers not-found; with an invalid root, the bare empty answer. In both cases nothing is written. Otherwise it reports the fresh root id and the stored root, and the database is what `saveTasks` leaves. |
| Controller.Destroy | app/Http/Controllers/API/TaskController.php:113-132 | `destroy` answers:<br>• not-found for an unknown user or task;<br>• a conflict for a done task, whoever asks;<br>• denied for a non-owner.<br>Only an owner's non-done task is deleted, with its rows, and every other answer leaves the database as it was. |
| Controller.Update | app/Http/Controllers/API/TaskController.php:142-161 | `update` answers not-found, denied for a non-owner, or the failing keys for an invalid payload. In those cases nothing is written. An owner's valid update sets exactly the four sent fields, with a `true` or whole-number float priority stored as the integer it stands for, and changes nothing else. |
| Controller.IsDone | app/Http/Controllers/API/TaskController.php:179-187 | `is_done` passes the required-boolean rule exactly for true, false, 1, 0, '1' and '0', and reads as true exactly for true, 1 and '1'. |
| Controller.MarkAsDone | app/Http/Controllers/API/TaskController.php:171-197 | `markAsDone` answers not-found, denied for a non-owner, or errors for a bad `is_done`. A true `is_done` sets the owner's task to done and changes nothing else; a false one writes nothing. |
| ControllerProperties.StoreKeepsWf | app/Http/Controllers/API/TaskController.php:93-104 | `store` keeps the database invariant. |
| ControllerProperties.DestroyKeepsWf | app/Http/Controllers/API/TaskController.php:113-132 | `destroy` keeps the database invariant. |
| ControllerProperties.UpdateKeepsWf | app/Http/Controllers/API/TaskController.php:142-161 | `update` keeps the database invariant. |
| ControllerProperties.MarkAsDoneKeepsWf | app/Http/Controllers/API/TaskController.php:171-197 | `markAsDone` keeps the database invariant. |
| ControllerProperties.NonOwnerNeverWrites | app/Http/Controllers/API/TaskController.php:123-177 | A user who does not own a task cannot change the database through it by `destroy`, `update` or `markAsDone`. A known user is told permission is denied, except that a done task answers with the conflict first. |
| ControllerProperties.DoneNeverDeleted | app/Http/Controllers/API/TaskController.php:117-121 | A done task survives `destroy`, for its owner and for everyone else. |
| ControllerProperties.MarkAsDoneIdempotent | app/Http/Controllers/API/TaskController.php:187-193 | Marking done twice leaves the same database as marking once. |
| ControllerProperties.MarkAsDoneSetsDone | app/Http/Controllers/API/TaskController.php:187-193 | After a successful mark the task is done, its other fields and owner are kept, and every other task is untouched. |
| ControllerProperties.UpdateRoundTrip | app/Http/Controllers/API/TaskController.php:150-160 | An owner whose update body, as the middleware hands it on, carries in-range fields reads back exactly those fields. |
| ControllerProperties.UpdateThroughMiddleware | app/Http/Controllers/API/TaskController.php:150-160 | An owner who sends a task's in-range fields through the request middleware reads back those fields with the title and description trimmed. |
| ControllerProperties.UpdateInvalidUnchanged | app/Http/Controllers/API/TaskController.php:150-154 | An invalid update changes nothing. For the owner it answers with the failing keys. |
| ControllerProperties.DestroyDetachesChildren | app/Http/Controllers/API/TaskController.php:127 | An owner's delete removes the task and every row naming it. Its former children remain, without a parent row, and every other task is untouched. |
| ControllerProperties.StoreReportsStoredTask | app/Http/Controllers/API/TaskController.php:103 | A successful `store` reports an id that was not in use before, under which the reported task is stored. |

## Left out

- HTTP status codes, JSON response shapes and messages: they become the `Outcome` datatype. `routes/api.php` and the JWT refresh middleware (token handling and wall-clock time) are not part of this model.
- Timestamps: `created_at` is the caller-supplied `now`, shared by all tasks of one call. `updated_at` and the relationship rows' timestamps are not modelled.
- Transactions: the source uses none, and each modelled endpoint is one atomic step. A failure between creating a task and attaching its row is not modelled.
- TaskModel.NestedChildren: `getNestedChildren` returns a nested tree of child tasks, each with its `depth` pivot. The model returns the flat set of ids in that tree; the tree's shape and pivots are described by `ChildTasks` and the relationship rows.
- Integer width: ids are unbounded naturals. The 32-bit unsigned columns and counter overflow are not modelled.
- TaskRules.Validate: `integer` is modelled as a JSON integer, a whole-number JSON float or `true`. A float keeps its exact decimal value, not its binary floating-point rounding. The framework also accepts numeric strings such as `"3"`, which it then stores as the integer.
- TaskRules.Validate: `required` treats a string as missing when PHP's `trim` leaves it empty. That matters only for a body the middleware has not cleaned.
- TaskRules.Clean: trims PHP's default `trim` characters only. Some framework versions also strip other Unicode spaces and zero-width characters; those are not modelled.
- Query.Matches: the title filter is plain case-sensitive containment, and the status filter is plain case-sensitive equality. SQL `LIKE` also reads `%` and `_` in the title as wildcards. Both `LIKE` and `where('status', ...)` compare under the column's collation, and MySQL's default collation ignores case, so `status=DONE` lists done tasks. None of this is modelled.
- Query.Request: the `priority` input is the already split `"lo,hi"` pair. A string without exactly one comma, with non-numeric parts, or equal to `"0"` (which PHP treats as absent) is not modelled.
- Query.Request: status and title are tested with PHP string truthiness, so `"0"` counts as absent; after the middleware an empty or blank input is already missing. Other PHP value types in the query string are not modelled.
- Controller.Index: without a sort plan the order of the rows is whatever the database yields, and the contract leaves it unconstrained. With a sort plan, ties are not broken in any particular way.
- Array and object values: a JSON array or object sent under one of the four rule keys, such as `"priority": [3]` or `"title": {}`, is not modelled. The framework fails each such value on its rule, so the model never reports a result PHP would not.
- Nested child payloads that are not JSON objects, and a `children` value that is not a list, are not modelled. A spec always has a payload map and a list of child specs.
- The `fillable` filter is not modelled separately. Every create and update passes only the four payload keys and the owner, so it never removes anything.
- The `depth` column's default of 0 is never used, because the service always supplies the depth.


=== FILE: controller.dfy ===
/**
 * The task endpoints (app/Http/Controllers/API/TaskController.php), each a
 * transition of the in-memory database. Every request names a route user,
 * who must exist; the permission service is then set to that user and
 * guards the endpoints that touch one task.
 */
module Controller {
  import opened Results
  import opened TaskRules
  import opened Relationships
  import opened TaskModel
  import opened TaskService
  import opened Permissions
  import opened Query

  /** What an endpoint answers, without HTTP codes or JSON shapes. */
  datatype Outcome =
    | NotFound                          // a `findOrFail` found nothing
    | Listed(rows: seq<Row>)            // the tasks `index` returns
    | Stored(id: TaskId, task: Task)    // `store`: the root task that was created
    | Empty                             // the bare `[]` answer
    | DoneConflict                      // `destroy` of a task that is done
    | Denied                            // the ownership guard failed
    | Deleted
    | Errors(keys: seq<string>)         // the validator's failing keys
    | Updated(task: Task)
    | MarkedDone

  datatype Response = Response(db: Db, outcome: Outcome)

  /** The guard the constructor builds: a fresh permission service set to the route user. */
  function Acting(user: UserId): (r: PermissionService)
    ensures forall t: Task :: Check(r, t) == Success(t.owner == user)
  {
    SetUser(Unset, user).0
  }

  /** The rows a listing must hold: each matching task once, with its id. */
  function Selected(tasks: map<TaskId, Task>, q: Request, user: UserId): (r: set<Row>)
    ensures forall row :: row in r <==> row.0 in tasks && tasks[row.0] == row.1 && Matches(q, user, row.1)
  {
    set id | id in tasks && Matches(q, user, tasks[id]) :: (id, tasks[id])
  }

  /** Reading one more id adds its row to the selection when it matches, and only then. */
  lemma SelectedStep(tasks: map<TaskId, Task>, todo: set<TaskId>, id: TaskId, q: Request, user: UserId)
    requires id in todo && todo <= tasks.Keys
    ensures (id, tasks[id]) !in Selected(tasks - todo, q, user)
    ensures Selected(tasks - (todo - {id}), q, user)
         == Selected(tasks - todo, q, user) + (if Matches(q, user, tasks[id]) then {(id, tasks[id])} else {})
  {
  }

  /** A set grown by a new element: its multiset grows by that element once. */
  lemma MultisetAddOne<T>(s: set<T>, x: T)
    requires x !in s
    ensures multiset(s + {x}) == multiset(s) + multiset{x}
  {
  }

  /**
   * `index`: reads the matching tasks in whatever order the store yields
   * them, then orders them when a sort is requested. Nothing is written.
   */
  method Index(db: Db, user: UserId, q: Request) returns (r: Response)
    ensures r.db == db
    ensures r.outcome == NotFound <==> user !in db.users
    ensures user in db.users ==> r.outcome.Listed?
    ensures r.outcome.Listed? ==> multiset(r.outcome.rows) == multiset(Selected(db.tasks, q, user))
    ensures r.outcome.Listed? ==>
              forall row: Row :: row in r.outcome.rows <==>
                row.0 in db.tasks && db.tasks[row.0] == row.1 && Matches(q, user, row.1)
    ensures r.outcome.Listed? ==> forall i, j | 0 <= i < j < |r.outcome.rows| :: r.outcome.rows[i].0 != r.outcome.rows[j].0
    ensures r.outcome.Listed? && q == NoInputs ==>
              forall row: Row :: row in r.outcome.rows <==> row.0 in db.tasks && db.tasks[row.0] == row.1 && row.1.owner == user
    ensures r.outcome.Listed? && SortPlan(q).Some? ==>
              Sorted(r.outcome.rows, SortPlan(q).value.0, SortPlan(q).value.1)
  {
    if user !in db.users {
      return Response(db, NotFound);
    }
    var rows: seq<Row> := [];
    var todo := db.tasks.Keys;
    while todo != {}
      invariant todo <= db.tasks.Keys
      invariant multiset(rows) == multiset(Selected(db.tasks - todo, q, user))
      decreases todo
    {
      var id :| id in todo;
      ghost var seen := Selected(db.tasks - todo, q, user);
      SelectedStep(db.tasks, todo, id, q, user);
      if Matches(q, user, db.tasks[id]) {
        MultisetAddOne(seen, (id, db.tasks[id]));
        rows := rows + [(id, db.tasks[id])];
      }
      todo := todo - {id};
    }
    assert db.tasks - todo == db.tasks;
    match SortPlan(q) {
      case None => r := Response(db, Listed(rows));
      case Some(plan) => r := Response(db, Listed(SortBy(rows, plan.0, plan.1)));
    }
    ListedRows(db.tasks, q, user, r.outcome.rows);
    forall t: Task | q == NoInputs ensures Matches(q, user, t) <==> t.owner == user {
      NoFiltersOwnerOnly(user, t);
    }
  }

  /** `store`: the service's answer when the root is valid, and the bare `[]` when it is not. */
  function Store(db: Db, user: UserId, request: Spec, now: int): (r: Response)
    ensures r.outcome == NotFound <==> user !in db.users
    ensures r.outcome == Empty <==> user in db.users && !Valid(request.payload)
    ensures r.outcome.Stored? <==> user in db.users && Valid(request.payload)
    ensures r.outcome.Stored? ==>
              && r.outcome.id == db.nextId
              && r.outcome.task == NewTask(user, Validate(request.payload).value, now)
              && r.db == SaveTasks(db, user, request, now).db
    ensures !r.outcome.Stored? ==> r.db == db
  {
    if user !in db.users then Response(db, NotFound)
    else
      var s := SaveTasks(db, user, request, now);
      match s.result
      case Failure(_) => Response(s.db, Empty)
      case Success(id) => Response(s.db, Stored(id, s.db.tasks[id]))
  }

  /**
   * `destroy`: a done task is refused before ownership is even checked;
   * otherwise only the owner may delete, and the cascade takes the task's
   * relationship rows with it.
   */
  function Destroy(db: Db, user: UserId, id: TaskId): (r: Response)
    ensures r.outcome == NotFound <==> user !in db.users || id !in db.tasks
    ensures r.outcome == DoneConflict <==> user in db.users && id in db.tasks && db.tasks[id].status == Done
    ensures r.outcome == Denied <==>
              user in db.users && id in db.tasks && db.tasks[id].status != Done && db.tasks[id].owner != user
    ensures r.outcome == Deleted <==>
              user in db.users && id in db.tasks && db.tasks[id].status != Done && db.tasks[id].owner == user
    ensures r.outcome == Deleted ==> r.db == DeleteTask(db, id)
    ensures r.outcome != Deleted ==> r.db == db
  {
    if user !in db.users || id !in db.tasks then Response(db, NotFound)
    else if db.tasks[id].status == Done then Response(db, DoneConflict)
    else if Check(Acting(user), db.tasks[id]) != Success(true) then Response(db, Denied)
    else Response(DeleteTask(db, id), Deleted)
  }

  /**
   * `update`: only the owner may update; an invalid payload answers with
   * the failing keys, a valid one overwrites exactly the four fields.
   */
  function Update(db: Db, user: UserId, id: TaskId, p: Payload): (r: Response)
    ensures r.outcome == NotFound <==> user !in db.users || id !in db.tasks
    ensures r.outcome == Denied <==> user in db.users && id in db.tasks && db.tasks[id].owner != user
    ensures r.outcome.Errors? <==>
              user in db.users && id in db.tasks && db.tasks[id].owner == user && !Valid(p)
    ensures r.outcome.Errors? ==> r.outcome.keys == FailingKeys(p)
    ensures r.outcome.Updated? <==>
              user in db.users && id in db.tasks && db.tasks[id].owner == user && Valid(p)
    ensures r.outcome.Updated? ==>
              && ToPayload(FieldsOf(r.outcome.task)) == Only(AsStored(p), RuleKeys)
              && r.outcome.task.owner == db.tasks[id].owner
              && r.outcome.task.createdAt == db.tasks[id].createdAt
              && r.db == db.(tasks := db.tasks[id := r.outcome.task])
    ensures !r.outcome.Updated? ==> r.db == db
  {
    if user !in db.users || id !in db.tasks then Response(db, NotFound)
    else if Check(Acting(user), db.tasks[id]) != Success(true) then Response(db, Denied)
    else
      match Validate(p)
      case Failure(keys) => Response(db, Errors(keys))
      case Success(f) =>
        ParsedFieldsAreOnly(p);
        var t := WithFields(db.tasks[id], f);
        WithFieldsThenFieldsOf(db.tasks[id], f);
        Response(db.(tasks := db.tasks[id := t]), Updated(t))
  }

  /**
   * The `is_done` rule `required|boolean`: the framework accepts exactly
   * true, false, 1, 0, '1' and '0', and the value is then read for its truth.
   */
  function IsDone(p: Payload): (r: Result<bool, seq<string>>)
    ensures r.Failure? <==>
              ("is_done" !in p || p["is_done"] !in {Bool(true), Bool(false), Int(1), Int(0), Str("1"), Str("0")})
    ensures r.Failure? ==> r.error == ["is_done"]
    ensures r.Success? ==> (r.value <==> p["is_done"] in {Bool(true), Int(1), Str("1")})
  {
    if "is_done" !in p then Failure(["is_done"])
    else
      match p["is_done"]
      case Bool(b) => Success(b)
      case Int(i) => if i == 1 then Success(true) else if i == 0 then Success(false) else Failure(["is_done"])
      case Str(s) => if s == "1" then Success(true) else if s == "0" then Success(false) else Failure(["is_done"])
      case Float(_) => Failure(["is_done"])
      case Null => Failure(["is_done"])
  }

  /**
   * `markAsDone`: only the owner may mark; a true `is_done` sets the status
   * to done, a false one changes nothing.
   */
  function MarkAsDone(db: Db, user: UserId, id: TaskId, p: Payload): (r: Response)
    ensures r.outcome == NotFound <==> user !in db.users || id !in db.tasks
    ensures r.outcome == Denied <==> user in db.users && id in db.tasks && db.tasks[id].owner != user
    ensures r.outcome.Errors? <==>
              user in db.users && id in db.tasks && db.tasks[id].owner == user && IsDone(p).Failure?
    ensures r.outcome == MarkedDone <==>
              user in db.users && id in db.tasks && db.tasks[id].owner == user && IsDone(p) == Success(true)
    ensures r.outcome == Empty <==>
              user in db.users && id in db.tasks && db.tasks[id].owner == user && IsDone(p) == Success(false)
    ensures r.outcome == MarkedDone ==> r.db == db.(tasks := db.tasks[id := db.tasks[id].(status := Done)])
    ensures r.outcome != MarkedDone ==> r.db == db
  {
    if user !in db.users || id !in db.tasks then Response(db, NotFound)
    else if Check(Acting(user), db.tasks[id]) != Success(true) then Response(db, Denied)
    else
      match IsDone(p)
      case Failure(keys) => Response(db, Errors(keys))
      case Success(done) =>
        if done then Response(db.(tasks := db.tasks[id := db.tasks[id].(status := Done)]), MarkedDone)
        else Response(db, Empty)
  }

  /** A sequence in which `x` sits at two positions holds `x` at least twice. */
  lemma CountedTwice<T>(s: seq<T>, i: nat, j: nat)
    requires i < j < |s|
    ensures s[i] == s[j] ==> multiset(s)[s[j]] >= 2
  {
    assert s == s[..j] + [s[j]] + s[j + 1..];
    assert s[i] in s[..j];
  }

  /** A listing holds each matching task exactly once, under its own id, and nothing else. */
  lemma ListedRows(tasks: map<TaskId, Task>, q: Request, user: UserId, rows: seq<Row>)
    requires multiset(rows) == multiset(Selected(tasks, q, user))
    ensures forall row: Row :: row in rows <==> row.0 in tasks && tasks[row.0] == row.1 && Matches(q, user, row.1)
    ensures forall i, j | 0 <= i < j < |rows| :: rows[i].0 != rows[j].0
  {
    var sel := Selected(tasks, q, user);
    forall row ensures row in rows <==> row in sel {
      assert row in rows <==> row in multiset(rows);
    }
    forall i, j | 0 <= i < j < |rows| ensures rows[i].0 != rows[j].0 {
      if rows[i].0 == rows[j].0 {
        CountedTwice(rows, i, j);
        assert false;
      }
    }
  }
}

=== FILE: controller_props.dfy ===
/**
 * What the endpoints guarantee across calls: the database invariant is kept
 * by every transition, the ownership guard never lets a non-owner write, a
 * done task is never deleted, marking done is idempotent, an update reads
 * back as written, and a deletion leaves the former children in place.
 */
module ControllerProperties {
  import opened Results
  import opened TaskRules
  import opened Relationships
  import opened TaskModel
  import opened TaskService
  import opened TaskServiceProperties
  import opened Permissions
  import opened Controller

  /** Rewriting task rows in place, with the same ids and the same relationship rows, keeps the invariant. */
  lemma RewriteKeepsWf(db: Db, r: Db)
    requires Wf(db)
    requires r.tasks.Keys == db.tasks.Keys && r.edges == db.edges && r.nextId == db.nextId
    ensures Wf(r)
  {
    assert ForeignKeys(r.tasks, r.edges);
  }

  /** `store` keeps the invariant. */
  lemma StoreKeepsWf(db: Db, user: UserId, request: Spec, now: int)
    requires Wf(db)
    ensures Wf(Store(db, user, request, now).db)
  {
    SaveTasksKeepsWf(db, user, request, now);
  }

  /** `destroy` keeps the invariant. */
  lemma DestroyKeepsWf(db: Db, user: UserId, id: TaskId)
    requires Wf(db)
    ensures Wf(Destroy(db, user, id).db)
  {
    DeleteKeepsWf(db, id);
  }

  /** `update` keeps the invariant. */
  lemma UpdateKeepsWf(db: Db, user: UserId, id: TaskId, p: Payload)
    requires Wf(db)
    ensures Wf(Update(db, user, id, p).db)
  {
    RewriteKeepsWf(db, Update(db, user, id, p).db);
  }

  /** `markAsDone` keeps the invariant. */
  lemma MarkAsDoneKeepsWf(db: Db, user: UserId, id: TaskId, p: Payload)
    requires Wf(db)
    ensures Wf(MarkAsDone(db, user, id, p).db)
  {
    RewriteKeepsWf(db, MarkAsDone(db, user, id, p).db);
  }

  /** The guard: whoever does not own a task cannot change the database through it, by any endpoint. */
  lemma NonOwnerNeverWrites(db: Db, user: UserId, id: TaskId, p: Payload)
    requires id in db.tasks && Check(Acting(user), db.tasks[id]) == Success(false)
    ensures Destroy(db, user, id).db == db
    ensures Update(db, user, id, p).db == db
    ensures MarkAsDone(db, user, id, p).db == db
    ensures user in db.users ==> Update(db, user, id, p).outcome == Denied
    ensures user in db.users ==> MarkAsDone(db, user, id, p).outcome == Denied
    ensures user in db.users && db.tasks[id].status != Done ==> Destroy(db, user, id).outcome == Denied
  {
    CheckAfterSetUser(Unset, user, db.tasks[id]);
  }

  /** A done task survives `destroy`, for its owner and for everyone else. */
  lemma DoneNeverDeleted(db: Db, user: UserId, id: TaskId)
    requires id in db.tasks && db.tasks[id].status == Done
    ensures Destroy(db, user, id).db == db
    ensures id in Destroy(db, user, id).db.tasks
  {
  }

  /** Marking a task done twice leaves the same database as marking it once. */
  lemma MarkAsDoneIdempotent(db: Db, user: UserId, id: TaskId, p: Payload)
    ensures var once := MarkAsDone(db, user, id, p).db;
            MarkAsDone(once, user, id, p).db == once
  {
    var once := MarkAsDone(db, user, id, p).db;
    if MarkAsDone(db, user, id, p).outcome == MarkedDone {
      assert once.tasks[id].status == Done;
      assert once.tasks[id := once.tasks[id].(status := Done)] == once.tasks;
    }
  }

  /** After a successful mark the task is done and nothing else about it or any other task has changed. */
  lemma MarkAsDoneSetsDone(db: Db, user: UserId, id: TaskId, p: Payload)
    requires MarkAsDone(db, user, id, p).outcome == MarkedDone
    ensures var r := MarkAsDone(db, user, id, p).db;
            && r.tasks[id].status == Done
            && FieldsOf(r.tasks[id]).(status := Done) == FieldsOf(db.tasks[id]).(status := Done)
            && r.tasks[id].owner == db.tasks[id].owner
            && forall k | k in db.tasks && k != id :: k in r.tasks && r.tasks[k] == db.tasks[k]
  {
  }

  /** Sending a task's fields as an update payload sets exactly those fields. */
  lemma UpdateRoundTrip(db: Db, user: UserId, id: TaskId, f: Fields)
    requires user in db.users && id in db.tasks && db.tasks[id].owner == user && FieldsOk(f)
    ensures Update(db, user, id, ToPayload(f)).outcome == Updated(WithFields(db.tasks[id], f))
    ensures FieldsOf(Update(db, user, id, ToPayload(f)).db.tasks[id]) == f
  {
    ValidateRoundTrip(f);
    WithFieldsThenFieldsOf(db.tasks[id], f);
  }

  /**
   * An owner who sends a task's in-range fields through the request
   * middleware reads back those fields with the title and description trimmed.
   */
  lemma UpdateThroughMiddleware(db: Db, user: UserId, id: TaskId, f: Fields)
    requires user in db.users && id in db.tasks && db.tasks[id].owner == user && FieldsOk(f)
    ensures Update(db, user, id, CleanPayload(ToPayload(f))).outcome == Updated(WithFields(db.tasks[id], TrimFields(f)))
    ensures FieldsOf(Update(db, user, id, CleanPayload(ToPayload(f))).db.tasks[id]) == TrimFields(f)
  {
    ValidateCleaned(ToPayload(f), f);
    WithFieldsThenFieldsOf(db.tasks[id], TrimFields(f));
  }

  /** A rejected update, for whatever reason, leaves every task as it was. */
  lemma UpdateInvalidUnchanged(db: Db, user: UserId, id: TaskId, p: Payload)
    requires !Valid(p)
    ensures Update(db, user, id, p).db == db
    ensures user in db.users && id in db.tasks && db.tasks[id].owner == user ==>
              Update(db, user, id, p) == Response(db, Errors(FailingKeys(p)))
  {
  }

  /**
   * A deletion by the owner removes the task and every row that names it;
   * its former children remain, now without a parent row, and every other
   * task is untouched.
   */
  lemma DestroyDetachesChildren(db: Db, user: UserId, id: TaskId)
    requires Wf(db) && user in db.users && id in db.tasks
    requires db.tasks[id].owner == user && db.tasks[id].status != Done
    ensures var r := Destroy(db, user, id).db;
            && id !in r.tasks
            && (forall e | e in r.edges :: e.ancestor != id && e.descendant != id)
            && (forall c | c in Children(db.edges, id) :: c in r.tasks && ParentTasks(r.edges, c) == {})
            && (forall k | k in db.tasks && k != id :: k in r.tasks && r.tasks[k] == db.tasks[k])
  {
    forall c | c in Children(db.edges, id)
      ensures c in DeleteTask(db, id).tasks && ParentTasks(DeleteTask(db, id).edges, c) == {}
    {
      DeleteKeepsChildren(db, id, c);
    }
  }

  /** `store` by a known user reports a fresh id and the task it stored under that id. */
  lemma StoreReportsStoredTask(db: Db, user: UserId, request: Spec, now: int)
    requires Wf(db) && user in db.users && Valid(request.payload)
    ensures var r := Store(db, user, request, now);
            && r.outcome.Stored?
            && r.outcome.id !in db.tasks
            && r.outcome.id in r.db.tasks
            && r.db.tasks[r.outcome.id] == r.outcome.task
  {
  }
}

=== FILE: model.dfy ===
/**
 * The `Task` model (app/Models/Task.php) and the in-memory database it
 * lives in: tasks keyed by id, relationship rows, the known users and the
 * next auto-increment id.
 */
module TaskModel {
  import opened TaskRules
  import opened Relationships

  type UserId = nat

  /** A stored task. Its id is its key in `Db.tasks`. */
  datatype Task = Task(owner: UserId, status: Status, priority: int, title: string,
                       description: string, createdAt: int)

  datatype Db = Db(users: set<UserId>, tasks: map<TaskId, Task>, edges: set<Edge>, nextId: TaskId)

  /** The mass-assignable columns other than the owner, read back from a task. */
  function FieldsOf(t: Task): Fields {
    Fields(t.status, t.priority, t.title, t.description)
  }

  /**
   * `Task::create` with the fillable attributes: the four payload fields and
   * `user_id`. The creation timestamp is supplied by the caller.
   */
  function NewTask(owner: UserId, f: Fields, now: int): (t: Task)
    ensures FieldsOf(t) == f && t.owner == owner && t.createdAt == now
  {
    Task(owner, f.status, f.priority, f.title, f.description, now)
  }

  /** `$task->update(...)` with the four payload fields: owner and timestamp are not touched. */
  function WithFields(t: Task, f: Fields): (r: Task)
    ensures r.owner == t.owner && r.createdAt == t.createdAt
  {
    t.(status := f.status, priority := f.priority, title := f.title, description := f.description)
  }

  /** Reading back what was written gives exactly the written fields. */
  lemma WithFieldsThenFieldsOf(t: Task, f: Fields)
    ensures FieldsOf(WithFields(t, f)) == f
  {
  }

  /** Writing back what was read changes nothing. */
  lemma FieldsOfThenWithFields(t: Task)
    ensures WithFields(t, FieldsOf(t)) == t
  {
  }

  /** A second update overrides the first entirely. */
  lemma WithFieldsTwice(t: Task, f: Fields, g: Fields)
    ensures WithFields(WithFields(t, f), g) == WithFields(t, g)
  {
  }

  /** `childTasks()`: the rows where `p` is the ancestor, with their `depth` pivot. */
  function ChildTasks(edges: set<Edge>, p: TaskId): (r: set<(TaskId, int)>)
    ensures forall c: TaskId, d: int :: (c, d) in r <==> Edge(p, c, d) in edges
  {
    set e | e in edges && e.ancestor == p :: (e.descendant, e.depth)
  }

  /** `parentTasks()`: the same rows read from the descendant's side. */
  function ParentTasks(edges: set<Edge>, c: TaskId): (r: set<(TaskId, int)>)
    ensures forall p: TaskId, d: int :: (p, d) in r <==> Edge(p, c, d) in edges
  {
    set e | e in edges && e.descendant == c :: (e.ancestor, e.depth)
  }

  /** The two relations are mirror images of one another, depth included. */
  lemma ChildParentDuality(edges: set<Edge>, p: TaskId, c: TaskId, d: int)
    ensures (c, d) in ChildTasks(edges, p) <==> (p, d) in ParentTasks(edges, c)
  {
  }

  /** In a forest a task's parent row is the one row into it. */
  lemma SoleParent(edges: set<Edge>, e: Edge)
    requires SingleParent(edges) && e in edges
    ensures ParentTasks(edges, e.descendant) == {(e.ancestor, e.depth)}
  {
    var ps := ParentTasks(edges, e.descendant);
    forall pd | pd in ps ensures pd == (e.ancestor, e.depth) {
      assert Edge(pd.0, e.descendant, pd.1) in edges;
    }
  }

  /** The ids of the direct children of `p`. */
  function Children(edges: set<Edge>, p: TaskId): (r: set<TaskId>)
    ensures forall c :: c in r <==> Linked(edges, p, c)
  {
    set e | e in edges && e.ancestor == p :: e.descendant
  }

  /** All rows end below `bound`. */
  predicate Below(edges: set<Edge>, bound: TaskId) {
    forall e | e in edges :: e.descendant < bound
  }

  /**
   * `getNestedChildren`: the ids reached by descending through `childTasks`
   * again and again from `p`.
   */
  function NestedChildren(edges: set<Edge>, p: TaskId, bound: TaskId): (r: set<TaskId>)
    requires Increasing(edges) && Below(edges, bound)
    ensures Children(edges, p) <= r
    ensures forall d | d in r :: p < d < bound
    decreases bound - p
  {
    var kids := Children(edges, p);
    assert forall c | c in kids :: p < c < bound;
    kids + (set c, d | c in kids && d in NestedChildren(edges, c, bound) :: d)
  }

  /** Descent is closed under one more step to a child. */
  lemma {:induction false} NestedStep(edges: set<Edge>, p: TaskId, q: TaskId, c: TaskId, bound: TaskId)
    requires Increasing(edges) && Below(edges, bound)
    requires q in NestedChildren(edges, p, bound) && Linked(edges, q, c)
    ensures c in NestedChildren(edges, p, bound)
    decreases bound - p
  {
    var kids := Children(edges, p);
    if q in kids {
      assert c in NestedChildren(edges, q, bound);
    } else {
      var k :| k in kids && q in NestedChildren(edges, k, bound);
      NestedStep(edges, k, q, c, bound);
    }
  }

  /** Some chain of rows leads down from `p` to `d`. */
  ghost predicate Reaches(edges: set<Edge>, p: TaskId, d: TaskId) {
    exists path: seq<TaskId> :: |path| >= 2 && path[0] == p && path[|path| - 1] == d && IsPath(edges, path)
  }

  /** Every id descent returns lies at the end of a chain of rows from `p`. */
  lemma {:induction false} NestedSound(edges: set<Edge>, p: TaskId, d: TaskId, bound: TaskId)
    requires Increasing(edges) && Below(edges, bound)
    requires d in NestedChildren(edges, p, bound)
    ensures Reaches(edges, p, d)
    decreases bound - p
  {
    var kids := Children(edges, p);
    if d in kids {
      var path := [p, d];
      assert IsPath(edges, path);
    } else {
      var c :| c in kids && d in NestedChildren(edges, c, bound);
      NestedSound(edges, c, d, bound);
      ReachesCons(edges, p, c, d);
    }
  }

  /** A row from `p` to `c` in front of a chain from `c` to `d` makes a chain from `p` to `d`. */
  lemma ReachesCons(edges: set<Edge>, p: TaskId, c: TaskId, d: TaskId)
    requires Linked(edges, p, c) && Reaches(edges, c, d)
    ensures Reaches(edges, p, d)
  {
    var tail :| |tail| >= 2 && tail[0] == c && tail[|tail| - 1] == d && IsPath(edges, tail);
    var path := [p] + tail;
    assert IsPath(edges, path) by {
      forall i | 0 <= i < |path| - 1 ensures Linked(edges, path[i], path[i + 1]) {
        if i > 0 {
          assert path[i] == tail[i - 1] && path[i + 1] == tail[i];
        }
      }
    }
    assert path[|path| - 1] == d;
  }

  /** Every id at the end of a chain of rows from `p` is returned by descent. */
  lemma {:induction false} NestedComplete(edges: set<Edge>, path: seq<TaskId>, bound: TaskId)
    requires Increasing(edges) && Below(edges, bound)
    requires |path| >= 2 && IsPath(edges, path)
    ensures path[|path| - 1] in NestedChildren(edges, path[0], bound)
    decreases |path|
  {
    assert Linked(edges, path[|path| - 2], path[|path| - 1]);
    if |path| > 2 {
      var prefix := path[..|path| - 1];
      assert IsPath(edges, prefix) by {
        forall i | 0 <= i < |prefix| - 1 ensures Linked(edges, prefix[i], prefix[i + 1]) {
          assert prefix[i] == path[i] && prefix[i + 1] == path[i + 1];
        }
      }
      NestedComplete(edges, prefix, bound);
      NestedStep(edges, path[0], path[|path| - 2], path[|path| - 1], bound);
    }
  }

  /** `getNestedChildren` returns exactly the ids some chain of rows leads down to from `p`. */
  lemma NestedChildrenIsReach(edges: set<Edge>, p: TaskId, d: TaskId, bound: TaskId)
    requires Increasing(edges) && Below(edges, bound)
    ensures d in NestedChildren(edges, p, bound) <==> Reaches(edges, p, d)
  {
    if d in NestedChildren(edges, p, bound) {
      NestedSound(edges, p, d, bound);
    }
    if Reaches(edges, p, d) {
      var path :| |path| >= 2 && path[0] == p && path[|path| - 1] == d && IsPath(edges, path);
      NestedComplete(edges, path, bound);
    }
  }

  /** The referential integrity of both foreign keys. */
  predicate ForeignKeys(tasks: map<TaskId, Task>, edges: set<Edge>) {
    forall e | e in edges :: e.ancestor in tasks && e.descendant in tasks
  }

  /** Every stored id was handed out by the auto-increment counter. */
  predicate IdsIssued(db: Db) {
    forall id | id in db.tasks :: id < db.nextId
  }

  /** The invariant every reachable database state keeps. */
  predicate Wf(db: Db) {
    IdsIssued(db) && ForeignKeys(db.tasks, db.edges) && Forest(db.edges)
  }

  /**
   * `$task->delete()`: the task row goes, and the cascade removes every
   * relationship row in which it is ancestor or descendant. Its former
   * children stay as tasks of their own.
   */
  function DeleteTask(db: Db, id: TaskId): (r: Db)
    ensures r.tasks.Keys == db.tasks.Keys - {id}
    ensures forall k | k in r.tasks :: r.tasks[k] == db.tasks[k]
    ensures r.edges == Cascade(db.edges, id)
    ensures r.users == db.users && r.nextId == db.nextId
  {
    db.(tasks := map k | k in db.tasks && k != id :: db.tasks[k], edges := Cascade(db.edges, id))
  }

  /** Deleting keeps the invariant: the cascade leaves no row pointing at the removed task. */
  lemma DeleteKeepsWf(db: Db, id: TaskId)
    requires Wf(db)
    ensures Wf(DeleteTask(db, id))
  {
    CascadeKeepsForest(db.edges, id);
  }

  /** The children of a deleted task survive, now without a parent row. */
  lemma DeleteKeepsChildren(db: Db, id: TaskId, c: TaskId)
    requires Wf(db) && c in Children(db.edges, id)
    ensures c in DeleteTask(db, id).tasks
    ensures ParentTasks(DeleteTask(db, id).edges, c) == {}
  {
    var e :| e in db.edges && e.ancestor == id && e.descendant == c;
    var r := DeleteTask(db, id);
    forall f | f in r.edges ensures f.descendant != c {
      assert f in db.edges;
    }
  }
}

=== FILE: permissions.dfy ===
/**
 * The ownership guard (app/Services/PermissionService.php): the service
 * remembers one acting user, and a task passes the check exactly when that
 * user owns it.
 */
module Permissions {
  import opened Results
  import opened TaskModel

  /** The service's only state: the user last handed to `setUser`, if any. */
  datatype PermissionService = PermissionService(user: Option<UserId>)

  /** A fresh service, before any user has been set. */
  const Unset := PermissionService(None)

  /** `setUser`: stores the user and hands it back. Whatever was stored before is forgotten. */
  function SetUser(s: PermissionService, u: UserId): (r: (PermissionService, UserId))
    ensures r.0.user == Some(u) && r.1 == u
  {
    (PermissionService(Some(u)), u)
  }

  /** Why `check` fails to answer: with no user stored, reading the user's id raises an error. */
  datatype CheckError = NoUserSet

  /**
   * `check`: the task's owner compared with the stored user's id. With no
   * user stored, the id is read from null, which raises an error instead
   * of answering.
   */
  function Check(s: PermissionService, t: Task): (r: Result<bool, CheckError>)
    ensures r.Failure? <==> s.user.None?
    ensures r.Success? ==> (r.value <==> t.owner == s.user.value)
  {
    match s.user
    case None => Failure(NoUserSet)
    case Some(u) => Success(t.owner == u)
  }

  /** After `setUser(u)` every check answers, and is decided against `u`, whatever was stored before. */
  lemma CheckAfterSetUser(s: PermissionService, u: UserId, t: Task)
    ensures Check(SetUser(s, u).0, t) == Success(t.owner == u)
  {
  }

  /** Of two `setUser` calls the last one wins. */
  lemma LastSetUserWins(s: PermissionService, u: UserId, v: UserId)
    ensures SetUser(SetUser(s, u).0, v).0 == SetUser(s, v).0
    ensures forall t :: Check(SetUser(SetUser(s, u).0, v).0, t) == Success(t.owner == v)
  {
  }

  /** A service with no user set cannot check any task: the check raises. */
  lemma UnsetRaises(t: Task)
    ensures Check(Unset, t) == Failure(NoUserSet)
  {
  }

  /** The check reads only the owner: tasks with the same owner get the same answer. */
  lemma CheckReadsOnlyOwner(s: PermissionService, t: Task, t': Task)
    requires t.owner == t'.owner
    ensures Check(s, t) == Check(s, t')
  {
  }
}

=== FILE: query.dfy ===
/**
 * The listing query of `index` (app/Http/Controllers/API/TaskController.php):
 * the acting user's tasks, narrowed by optional status, priority-range and
 * title filters joined with AND, and optionally ordered by creation time or
 * priority in a direction chosen case-insensitively.
 */
module Query {
  import opened Results
  import opened TaskRules
  import opened Relationships
  import opened TaskModel

  /** One listed task: its id and the stored row. */
  type Row = (TaskId, Task)

  /**
   * The query-string inputs as `index` reads them, after the framework's
   * default request middleware: every string is already trimmed, and one
   * that was empty arrives as a missing input. `priority` is the already
   * split `"lo,hi"` pair; a missing input is `None`.
   */
  datatype Request = Request(status: Option<string>, priority: Option<(int, int)>, title: Option<string>,
                             sortField: Option<string>, sortType: Option<string>)

  /** A request with no inputs at all. */
  const NoInputs := Request(None, None, None, None, None)

  /** PHP's truth value of a string: only '' and '0' are false. */
  predicate Truthy(s: string) {
    s != "" && s != "0"
  }

  /** An input that is present and truthy, the condition under which `index` applies it. */
  predicate Given(o: Option<string>) {
    o.Some? && Truthy(o.value)
  }

  /** `needle` occurs in `hay` starting at position `i`. */
  predicate OccursAt(hay: string, needle: string, i: nat) {
    i + |needle| <= |hay| && hay[i..i + |needle|] == needle
  }

  /** `needle` is a prefix of `hay`. */
  predicate IsPrefix(needle: string, hay: string) {
    |needle| <= |hay| && hay[..|needle|] == needle
  }

  /** `LIKE '%needle%'` read as plain containment: some suffix of `hay` starts with `needle`. */
  predicate Contains(hay: string, needle: string)
    decreases |hay|
  {
    IsPrefix(needle, hay) || (|hay| > 0 && Contains(hay[1..], needle))
  }

  /** Containment is occurrence at some position. */
  lemma {:induction false} ContainsIffOccurs(hay: string, needle: string)
    ensures Contains(hay, needle) <==> exists i: nat :: OccursAt(hay, needle, i)
    decreases |hay|
  {
    if IsPrefix(needle, hay) {
      assert OccursAt(hay, needle, 0);
    } else if |hay| > 0 {
      ContainsIffOccurs(hay[1..], needle);
      if Contains(hay[1..], needle) {
        var i: nat :| OccursAt(hay[1..], needle, i);
        assert hay[1..][i..i + |needle|] == hay[i + 1..i + 1 + |needle|];
        assert OccursAt(hay, needle, i + 1);
      }
      if i: nat :| OccursAt(hay, needle, i) {
        if i == 0 {
          assert false;
        } else {
          assert hay[1..][i - 1..i - 1 + |needle|] == hay[i..i + |needle|];
          assert OccursAt(hay[1..], needle, i - 1);
        }
      }
    } else {
      if i: nat :| OccursAt(hay, needle, i) {
        assert false;
      }
    }
  }

  /** The empty title never narrows anything. */
  lemma EmptyNeedleEverywhere(hay: string)
    ensures Contains(hay, "")
  {
    assert IsPrefix("", hay);
  }

  /** `strtolower` on one character: only the ASCII capitals change. */
  function LowerChar(c: char): (r: char)
    ensures 'A' <= c <= 'Z' ==> 'a' <= r <= 'z' && r as int - c as int == 32
    ensures !('A' <= c <= 'Z') ==> r == c
  {
    if 'A' <= c <= 'Z' then (c as int + 32) as char else c
  }

  /** `strtolower`. */
  function Lower(s: string): (r: string)
    ensures |r| == |s|
    ensures forall i | 0 <= i < |s| :: r[i] == LowerChar(s[i])
  {
    seq(|s|, i requires 0 <= i < |s| => LowerChar(s[i]))
  }

  /** Lower-casing twice is lower-casing once. */
  lemma LowerIdempotent(s: string)
    ensures Lower(Lower(s)) == Lower(s)
  {
    var once := Lower(s);
    forall i | 0 <= i < |s| ensures Lower(once)[i] == once[i] {
      assert !('A' <= once[i] <= 'Z');
    }
  }

  /**
   * `a` spells `b` up to the case of ASCII letters, character by character,
   * with `b` written in lower case.
   */
  predicate SameIgnoringCase(a: string, b: string) {
    && |a| == |b|
    && forall i | 0 <= i < |a| :: a[i] == b[i] || ('a' <= b[i] <= 'z' && a[i] as int == b[i] as int - 32)
  }

  datatype Direction = Asc | Desc

  /**
   * The sort direction: `desc` when the lower-cased `sort_type` is `desc`, that
   * is, when it spells `desc` in any mix of ASCII cases; `asc` otherwise and by default.
   */
  function DirectionOf(sortType: Option<string>): (r: Direction)
    ensures r == Desc <==> sortType.Some? && Lower(sortType.value) == "desc"
    ensures r == Desc <==> sortType.Some? && SameIgnoringCase(sortType.value, "desc")
  {
    if Lower(sortType.GetOr("asc")) == "desc" then Desc else Asc
  }

  /** The spellings clients use are all recognised, and nothing else is `desc`. */
  lemma DirectionExamples()
    ensures DirectionOf(Some("DESC")) == Desc && DirectionOf(Some("Desc")) == Desc
    ensures DirectionOf(Some("desc")) == Desc
    ensures DirectionOf(None) == Asc && DirectionOf(Some("ASC")) == Asc && DirectionOf(Some("down")) == Asc
  {
    assert Lower("DESC") == "desc";
    assert Lower("Desc") == "desc";
    assert Lower("desc") == "desc";
    assert Lower("asc")[0] == 'a';
    assert Lower("ASC")[0] == 'a';
    assert Lower("down")[1] == 'o';
  }

  /** The columns a listing may be ordered by. */
  datatype SortKey = ByCreatedAt | ByPriority

  /** The key column's value on a row. */
  function KeyOf(k: SortKey, row: Row): int {
    match k
    case ByCreatedAt => row.1.createdAt
    case ByPriority => row.1.priority
  }

  /**
   * The ordering `index` asks for: none unless `sort_field` is given and is
   * `created_at` or `priority`.
   */
  function SortPlan(q: Request): (r: Option<(SortKey, Direction)>)
    ensures r.Some? <==> Given(q.sortField) && (q.sortField.value == "created_at" || q.sortField.value == "priority")
    ensures r.Some? ==> r.value.0 == (if q.sortField.value == "priority" then ByPriority else ByCreatedAt)
    ensures r.Some? ==> r.value.1 == DirectionOf(q.sortType)
  {
    if !Given(q.sortField) then None
    else if q.sortField.value == "created_at" then Some((ByCreatedAt, DirectionOf(q.sortType)))
    else if q.sortField.value == "priority" then Some((ByPriority, DirectionOf(q.sortType)))
    else None
  }

  /**
   * Whether one task survives the filters; the owner scope comes first and all
   * filters must hold. The title filter holds exactly when the needle occurs
   * somewhere in the title, and an inverted priority range selects nothing.
   */
  predicate Matches(q: Request, user: UserId, t: Task)
    ensures Matches(q, user, t) <==>
      && t.owner == user
      && (Given(q.status) ==> StatusName(t.status) == q.status.value)
      && (q.priority.Some? ==> q.priority.value.0 <= t.priority <= q.priority.value.1)
      && (Given(q.title) ==> exists i: nat :: OccursAt(t.title, q.title.value, i))
    ensures q.priority.Some? && q.priority.value.0 > q.priority.value.1 ==> !Matches(q, user, t)
  {
    && t.owner == user
    && (Given(q.status) ==> StatusName(t.status) == q.status.value)
    && (q.priority.Some? ==> q.priority.value.0 <= t.priority <= q.priority.value.1)
    && (Given(q.title) ==> (ContainsIffOccurs(t.title, q.title.value); Contains(t.title, q.title.value)))
  }

  /** Without filters a task matches exactly when the user owns it. */
  lemma NoFiltersOwnerOnly(user: UserId, t: Task)
    ensures Matches(NoInputs, user, t) <==> t.owner == user
  {
  }

  /** `a` may come before `b` in direction `dir`. */
  predicate InOrder(dir: Direction, a: int, b: int) {
    if dir == Asc then a <= b else a >= b
  }

  /** Every earlier row's key is in order with every later row's key. */
  predicate Sorted(rows: seq<Row>, key: SortKey, dir: Direction) {
    forall i, j | 0 <= i < j < |rows| :: InOrder(dir, KeyOf(key, rows[i]), KeyOf(key, rows[j]))
  }

  /** Places `row` before the first row it may precede. */
  function Insert(row: Row, rows: seq<Row>, key: SortKey, dir: Direction): (r: seq<Row>)
    ensures multiset(r) == multiset(rows) + multiset{row}
    ensures forall x | x in r :: x == row || x in rows
    decreases rows
  {
    if |rows| == 0 then [row]
    else if InOrder(dir, KeyOf(key, row), KeyOf(key, rows[0])) then [row] + rows
    else
      assert rows == [rows[0]] + rows[1..];
      [rows[0]] + Insert(row, rows[1..], key, dir)
  }

  /** A row in order with every row of a sorted listing may be put in front of it. */
  lemma SortedCons(x: Row, rows: seq<Row>, key: SortKey, dir: Direction)
    requires Sorted(rows, key, dir)
    requires forall y | y in rows :: InOrder(dir, KeyOf(key, x), KeyOf(key, y))
    ensures Sorted([x] + rows, key, dir)
  {
    var r := [x] + rows;
    forall i, j | 0 <= i < j < |r| ensures InOrder(dir, KeyOf(key, r[i]), KeyOf(key, r[j])) {
      if i == 0 {
        assert r[j] == rows[j - 1];
      } else {
        assert r[i] == rows[i - 1] && r[j] == rows[j - 1];
      }
    }
  }

  /** The tail of a sorted listing is sorted, and its head is in order with all of it. */
  lemma SortedTail(rows: seq<Row>, key: SortKey, dir: Direction)
    requires Sorted(rows, key, dir) && |rows| > 0
    ensures Sorted(rows[1..], key, dir)
    ensures forall y | y in rows[1..] :: InOrder(dir, KeyOf(key, rows[0]), KeyOf(key, y))
  {
    var tail := rows[1..];
    forall i, j | 0 <= i < j < |tail| ensures InOrder(dir, KeyOf(key, tail[i]), KeyOf(key, tail[j])) {
      assert tail[i] == rows[i + 1] && tail[j] == rows[j + 1];
    }
    forall y | y in tail ensures InOrder(dir, KeyOf(key, rows[0]), KeyOf(key, y)) {
      var k :| 0 <= k < |tail| && tail[k] == y;
      assert rows[k + 1] == y;
    }
  }

  /** Inserting into a sorted listing keeps it sorted. */
  lemma {:induction false} InsertSorted(row: Row, rows: seq<Row>, key: SortKey, dir: Direction)
    requires Sorted(rows, key, dir)
    ensures Sorted(Insert(row, rows, key, dir), key, dir)
    decreases rows
  {
    if |rows| == 0 {
      assert Insert(row, rows, key, dir) == [row];
    } else {
      SortedTail(rows, key, dir);
      if InOrder(dir, KeyOf(key, row), KeyOf(key, rows[0])) {
        assert rows == [rows[0]] + rows[1..];
        SortedCons(row, rows, key, dir);
      } else {
        InsertSorted(row, rows[1..], key, dir);
        SortedCons(rows[0], Insert(row, rows[1..], key, dir), key, dir);
      }
    }
  }

  /** `orderBy(key, dir)`: the same rows, arranged so that every earlier key is in order with every later one. */
  function SortBy(rows: seq<Row>, key: SortKey, dir: Direction): (r: seq<Row>)
    ensures multiset(r) == multiset(rows)
    ensures Sorted(r, key, dir)
    decreases rows
  {
    if |rows| == 0 then []
    else
      assert rows == [rows[0]] + rows[1..];
      var rest := SortBy(rows[1..], key, dir);
      InsertSorted(rows[0], rest, key, dir);
      Insert(rows[0], rest, key, dir)
  }
}

=== FILE: relationships.dfy ===
/**
 * The `task_relationships` table (database/migrations/..._create_task_relationships_table.php):
 * one row per (ancestor, descendant) pair with an integer `depth`, the pair
 * as composite primary key, and both columns as foreign keys into `tasks`
 * with cascading delete.
 *
 * Although the table is named like a closure table, the service only ever
 * inserts a row between a task and its immediate parent; the predicates
 * here describe that adjacency forest, not a transitive closure.
 */
module Relationships {

  type TaskId = nat

  /** One row of the relationship table. */
  datatype Edge = Edge(ancestor: TaskId, descendant: TaskId, depth: int)

  /** The ids in `[lo, hi)`. */
  function Range(lo: TaskId, hi: TaskId): (r: set<TaskId>)
    ensures forall i :: i in r <==> lo <= i < hi
    decreases hi - lo
  {
    if lo >= hi then {} else {lo} + Range(lo + 1, hi)
  }

  /** `Range(lo, hi)` has exactly `hi - lo` ids. */
  lemma {:induction false} RangeSize(lo: nat, hi: nat)
    requires lo <= hi
    ensures |Range(lo, hi)| == hi - lo
    decreases hi - lo
  {
    if lo < hi {
      RangeSize(lo + 1, hi);
      assert Range(lo, hi) == {lo} + Range(lo + 1, hi);
    } else {
      assert Range(lo, hi) == {};
    }
  }

  /** The tasks that are the descendant of some row. */
  function Descendants(edges: set<Edge>): (r: set<TaskId>)
    ensures forall d :: d in r <==> exists e | e in edges :: e.descendant == d
  {
    set e | e in edges :: e.descendant
  }

  /** The composite primary key: at most one row per (ancestor, descendant) pair. */
  predicate PrimaryKeyUnique(edges: set<Edge>) {
    forall e1, e2 | e1 in edges && e2 in edges ::
      e1.ancestor == e2.ancestor && e1.descendant == e2.descendant ==> e1 == e2
  }

  /** Every ancestor was created before its descendant, so no row closes a cycle. */
  predicate Increasing(edges: set<Edge>) {
    forall e | e in edges :: e.ancestor < e.descendant
  }

  /** Every task is the descendant of at most one row: the rows form a forest. */
  predicate SingleParent(edges: set<Edge>) {
    forall e1, e2 | e1 in edges && e2 in edges :: e1.descendant == e2.descendant ==> e1 == e2
  }

  /** The depth below a task is one more than the depth of the row leading to it. */
  predicate DepthChain(edges: set<Edge>) {
    forall e, f | e in edges && f in edges :: f.descendant == e.ancestor ==> e.depth == f.depth + 1
  }

  /** The rows of `r` that end at `d`. */
  function Into(r: set<Edge>, d: TaskId): set<Edge> {
    set f | f in r && f.descendant == d
  }

  /** Each row is the only row into its descendant (`SingleParent`, stated row by row). */
  predicate OneInto(r: set<Edge>) {
    forall e | e in r :: forall f | f in Into(r, e.descendant) :: f == e
  }

  /** The row into a row's ancestor is one level up (`DepthChain`, stated row by row). */
  predicate ChainIn(r: set<Edge>) {
    forall e | e in r :: forall f | f in Into(r, e.ancestor) :: e.depth == f.depth + 1
  }

  /** The row-by-row statement implies the pairwise one. */
  lemma OneIntoSingleParent(r: set<Edge>)
    requires OneInto(r)
    ensures SingleParent(r)
  {
    forall e1, e2 | e1 in r && e2 in r && e1.descendant == e2.descendant ensures e1 == e2 {
      assert e2 in Into(r, e1.descendant);
    }
  }

  /** The row-by-row statement implies the pairwise one. */
  lemma ChainInDepthChain(r: set<Edge>)
    requires ChainIn(r)
    ensures DepthChain(r)
  {
    forall e, f | e in r && f in r && f.descendant == e.ancestor ensures e.depth == f.depth + 1 {
      assert f in Into(r, e.ancestor);
    }
  }

  predicate NonNegativeDepth(edges: set<Edge>) {
    forall e | e in edges :: e.depth >= 0
  }

  /** The shape the rows written by the task service keep. */
  predicate Forest(edges: set<Edge>) {
    Increasing(edges) && SingleParent(edges) && DepthChain(edges) && NonNegativeDepth(edges)
  }

  /** A forest never has two rows for one pair, so it never violates the primary key. */
  lemma ForestKeepsPrimaryKey(edges: set<Edge>)
    requires SingleParent(edges)
    ensures PrimaryKeyUnique(edges)
  {
  }

  /** Some row leads from `a` to `b`. */
  predicate Linked(edges: set<Edge>, a: TaskId, b: TaskId) {
    exists e | e in edges :: e.ancestor == a && e.descendant == b
  }

  /** A chain of tasks, each row linking one to the next. */
  predicate IsPath(edges: set<Edge>, path: seq<TaskId>) {
    forall i | 0 <= i < |path| - 1 :: Linked(edges, path[i], path[i + 1])
  }

  /** In an increasing edge set every path climbs strictly: no task is its own ancestor. */
  lemma {:induction false} NoCycles(edges: set<Edge>, path: seq<TaskId>)
    requires Increasing(edges)
    requires |path| >= 2 && IsPath(edges, path)
    ensures path[0] < path[|path| - 1]
    decreases |path|
  {
    assert Linked(edges, path[0], path[1]);
    if |path| > 2 {
      var tail := path[1..];
      assert IsPath(edges, tail) by {
        forall i | 0 <= i < |tail| - 1
          ensures Linked(edges, tail[i], tail[i + 1])
        {
          assert 0 <= i + 1 < |path| - 1;
          assert tail[i] == path[i + 1] && tail[i + 1] == path[i + 2];
        }
      }
      NoCycles(edges, tail);
    }
  }

  /**
   * Along a path that starts at a task whose own rows all have depth 0, the
   * row reaching the k-th task below it carries depth k - 1: depth is the
   * nesting level.
   */
  lemma {:induction false} DepthIsLevel(edges: set<Edge>, path: seq<TaskId>, e: Edge)
    requires DepthChain(edges)
    requires |path| >= 2 && IsPath(edges, path)
    requires forall f | f in edges && f.ancestor == path[0] :: f.depth == 0
    requires e in edges && e.ancestor == path[|path| - 2] && e.descendant == path[|path| - 1]
    ensures e.depth == |path| - 2
    decreases |path|
  {
    if |path| > 2 {
      var prefix := path[..|path| - 1];
      assert Linked(edges, path[|path| - 3], path[|path| - 2]);
      var f :| f in edges && f.ancestor == path[|path| - 3] && f.descendant == path[|path| - 2];
      assert IsPath(edges, prefix) by {
        forall i | 0 <= i < |prefix| - 1 ensures Linked(edges, prefix[i], prefix[i + 1]) {
          assert prefix[i] == path[i] && prefix[i + 1] == path[i + 1];
        }
      }
      DepthIsLevel(edges, prefix, f);
    }
  }

  /**
   * Inserting a row with the given pivot `depth` (the relation's `attach`).
   * The database would refuse a duplicate pair; the service only attaches
   * freshly created descendants, which never collide (`SaveTasksKeepsWf`).
   */
  function Attach(edges: set<Edge>, ancestor: TaskId, descendant: TaskId, depth: int): (r: set<Edge>)
    ensures edges <= r && r - edges <= {Edge(ancestor, descendant, depth)}
    ensures Edge(ancestor, descendant, depth) in r
  {
    edges + {Edge(ancestor, descendant, depth)}
  }

  /** The rows left after the delete cascades from task `id` on both foreign keys. */
  function Cascade(edges: set<Edge>, id: TaskId): (r: set<Edge>)
    ensures r <= edges
    ensures forall e | e in r :: e.ancestor != id && e.descendant != id
    ensures forall e | e in edges && e.ancestor != id && e.descendant != id :: e in r
  {
    set e | e in edges && e.ancestor != id && e.descendant != id
  }

  /** Removing rows keeps every forest property. */
  lemma SubsetKeepsForest(edges: set<Edge>, sub: set<Edge>)
    requires Forest(edges) && sub <= edges
    ensures Forest(sub)
  {
  }

  /** Cascading a delete preserves the forest shape. */
  lemma CascadeKeepsForest(edges: set<Edge>, id: TaskId)
    requires Forest(edges)
    ensures Forest(Cascade(edges, id))
  {
    SubsetKeepsForest(edges, Cascade(edges, id));
  }
}

=== FILE: results.dfy ===
/** The optional value and the success-or-error result shared by the whole model. */
module Results {

  /** An optional value: a request parameter that may be absent. */
  datatype Option<+T> = None | Some(value: T) {

    /** The carried value, or `default` when absent. */
    function GetOr(default: T): T {
      match this
      case Some(v) => v
      case None => default
    }
  }

  /** Either a value or an error report. */
  datatype Result<+R, +E> = Success(value: R) | Failure(error: E)
}

=== FILE: rules.dfy ===
/**
 * The validation rules applied to every task payload before it reaches the
 * store (app/Constants/TaskConstants.php): `status` is `todo` or `done`,
 * `priority` is an integer between 1 and 5, and `title` and `description`
 * are required strings.
 */
module TaskRules {
  import opened Results

  /**
   * A request value as it arrives in a decoded JSON body. A number written
   * with a fraction or an exponent decodes to a PHP float; `Float` keeps its
   * exact value.
   */
  datatype Value = Str(s: string) | Int(i: int) | Float(f: real) | Bool(b: bool) | Null

  /**
   * A request body: keys to values. Keys the rules do not name are ignored.
   * The controller sees the body after `Clean`, the framework's default
   * request middleware, has run on it.
   */
  type Payload = map<string, Value>

  datatype Status = Todo | Done

  /** The four validated task fields, in the shape the store keeps them. */
  datatype Fields = Fields(status: Status, priority: int, title: string, description: string)

  /** The keys the rules constrain, in the order the validator reports them. */
  const RuleKeys: seq<string> := ["status", "priority", "title", "description"]

  /** The characters PHP's `trim` strips. */
  const TrimChars: set<char> := {' ', '\t', '\n', '\r', '\0', '\U{000B}'}

  function StatusName(s: Status): string {
    match s
    case Todo => "todo"
    case Done => "done"
  }

  /** A string that `trim` reduces to '' -- the framework's `required` rejects it. */
  predicate Blank(s: string) {
    forall i | 0 <= i < |s| :: s[i] in TrimChars
  }

  /** `required|string|in:todo,done` */
  predicate StatusRule(p: Payload) {
    "status" in p && (p["status"] == Str("todo") || p["status"] == Str("done"))
  }

  /**
   * `required|integer|min:1|max:5`. A JSON integer is measured by its value.
   * PHP's integer filter reads a float through its string form, so a whole
   * number such as 3.0 ("3") passes and 2.5 does not; `min`/`max` then
   * measure its value. The filter also reads `true` as 1, and `min`/`max`
   * then measure the length of its string form "1", so `true` passes too;
   * `false` does not.
   */
  predicate PriorityRule(p: Payload) {
    "priority" in p &&
    match p["priority"]
    case Int(i) => 1 <= i <= 5
    case Float(f) => f == f.Floor as real && 1.0 <= f <= 5.0
    case Bool(b) => b
    case _ => false
  }

  /** The integer a value that passes `integer` stands for. */
  function IntegerOf(v: Value): int {
    match v
    case Int(i) => i
    case Float(f) => f.Floor
    case _ => 1
  }

  /** `v` is a value the `integer` rule reads as `i`. */
  predicate Denotes(v: Value, i: int) {
    v == Int(i) || v == Float(i as real) || (v == Bool(true) && i == 1)
  }

  /** `required|string` */
  predicate TextRule(p: Payload, key: string) {
    key in p && p[key].Str? && !Blank(p[key].s)
  }

  /** `trim` from the front: drops the leading `TrimChars`. */
  function TrimStart(s: string): (r: string)
    ensures |r| <= |s| && r == s[|s| - |r|..]
    ensures forall i | 0 <= i < |s| - |r| :: s[i] in TrimChars
    ensures r != [] ==> r[0] !in TrimChars
    decreases |s|
  {
    if s != [] && s[0] in TrimChars then TrimStart(s[1..]) else s
  }

  /** `trim` from the back: drops the trailing `TrimChars`. */
  function TrimEnd(s: string): (r: string)
    ensures |r| <= |s| && r == s[..|r|]
    ensures forall i | |r| <= i < |s| :: s[i] in TrimChars
    ensures r != [] ==> r[|r| - 1] !in TrimChars
    decreases |s|
  {
    if s != [] && s[|s| - 1] in TrimChars then TrimEnd(s[..|s| - 1]) else s
  }

  /** PHP's `trim` with its default character list. */
  function Trim(s: string): (r: string)
    ensures r == "" <==> Blank(s)
    ensures r != "" ==> r[0] !in TrimChars && r[|r| - 1] !in TrimChars
  {
    var t := TrimStart(s);
    assert t != "" ==> t[0] == s[|s| - |t|];
    var r := TrimEnd(t);
    assert r != "" ==> r[0] == t[0];
    r
  }

  /** A string `trim` leaves alone: no `TrimChars` at either end. */
  predicate Trimmed(s: string) {
    s != "" ==> s[0] !in TrimChars && s[|s| - 1] !in TrimChars
  }

  /** `trim` changes nothing on a string that has no `TrimChars` at its ends. */
  lemma TrimKeepsTrimmed(s: string)
    requires Trimmed(s)
    ensures Trim(s) == s
  {
    assert TrimStart(s) == s;
  }

  /** Trimming twice is trimming once. */
  lemma TrimIdempotent(s: string)
    ensures Trim(Trim(s)) == Trim(s)
  {
    TrimKeepsTrimmed(Trim(s));
  }

  /** The middleware on one string: trimmed, or null when nothing is left. */
  function CleanString(s: string): (r: Value)
    ensures r == Null || r == Str(Trim(s))
    ensures r == Null <==> Trim(s) == ""
  {
    var t := Trim(s);
    if t == "" then Null else Str(t)
  }

  /**
   * The framework's default request middleware, applied to every string of
   * the body before the controller sees it: `TrimStrings` trims it, then
   * `ConvertEmptyStringsToNull` turns the empty string into null.
   */
  function Clean(v: Value): (r: Value)
    ensures r.Str? ==> r.s != "" && Trimmed(r.s)
    ensures r == Null <==> v == Null || (v.Str? && Trim(v.s) == "")
    ensures v.Str? && r.Str? ==> r.s == Trim(v.s)
    ensures !v.Str? ==> r == v
  {
    match v
    case Str(s) => CleanString(s)
    case _ => v
  }

  /** The middleware applied to every value of a body. */
  function CleanPayload(p: Payload): (r: Payload)
    ensures r.Keys == p.Keys
    ensures forall k | k in p :: r[k] == Clean(p[k])
  {
    map k | k in p :: Clean(p[k])
  }

  /** A body the middleware has already cleaned: no string is empty or padded. */
  predicate CleanBody(p: Payload) {
    forall k | k in p :: p[k].Str? ==> p[k].s != "" && Trimmed(p[k].s)
  }

  /** The middleware's output is a clean body, and cleaning it again changes nothing. */
  lemma CleanPayloadIdempotent(p: Payload)
    ensures CleanBody(CleanPayload(p))
    ensures CleanPayload(CleanPayload(p)) == CleanPayload(p)
  {
    var q := CleanPayload(p);
    forall k | k in q ensures Clean(q[k]) == q[k] {
      if q[k].Str? {
        TrimKeepsTrimmed(q[k].s);
      }
    }
  }

  /** The rule attached to `key`; keys without a rule always pass. */
  predicate Rule(p: Payload, key: string) {
    if key == "status" then StatusRule(p)
    else if key == "priority" then PriorityRule(p)
    else if key == "title" || key == "description" then TextRule(p, key)
    else true
  }

  /** A payload passes when every rule of the rule set holds. */
  predicate Valid(p: Payload) {
    forall k | k in RuleKeys :: Rule(p, k)
  }

  /** `Valid` spelled out rule by rule. */
  lemma ValidUnfold(p: Payload)
    ensures Valid(p) <==> StatusRule(p) && PriorityRule(p) && TextRule(p, "title") && TextRule(p, "description")
  {
    assert "status" in RuleKeys && "priority" in RuleKeys;
    assert "title" in RuleKeys && "description" in RuleKeys;
    forall k | k in RuleKeys
      ensures k == "status" || k == "priority" || k == "title" || k == "description"
    {
    }
  }

  /** Field values a stored task may carry. */
  predicate FieldsOk(f: Fields) {
    1 <= f.priority <= 5 && !Blank(f.title) && !Blank(f.description)
  }

  /** The keys whose rule fails, in rule order. */
  function FailingKeys(p: Payload): (r: seq<string>)
    ensures forall k :: k in r <==> k in RuleKeys && !Rule(p, k)
    ensures r == [] <==> Valid(p)
  {
    ValidUnfold(p);
    (if StatusRule(p) then [] else ["status"])
    + (if PriorityRule(p) then [] else ["priority"])
    + (if TextRule(p, "title") then [] else ["title"])
    + (if TextRule(p, "description") then [] else ["description"])
  }

  /**
   * Runs the rule set over a payload: either the four parsed fields or the
   * keys that failed.
   */
  function Validate(p: Payload): (r: Result<Fields, seq<string>>)
    ensures r.Success? <==> Valid(p)
    ensures r.Success? ==> forall k | k in RuleKeys :: k in p
    ensures r.Success? ==> FieldsOk(r.value)
    ensures r.Success? ==> && p["status"] == Str(StatusName(r.value.status))
                           && Denotes(p["priority"], r.value.priority)
                           && p["title"] == Str(r.value.title)
                           && p["description"] == Str(r.value.description)
    ensures r.Failure? ==> r.error != [] && forall k :: k in r.error <==> k in RuleKeys && !Rule(p, k)
  {
    var failing := FailingKeys(p);
    if failing != [] then Failure(failing)
    else
      Success(Fields(
        if p["status"] == Str("done") then Done else Todo,
        IntegerOf(p["priority"]),
        p["title"].s,
        p["description"].s))
  }

  /** `$request->only(keys)`: the part of the payload under the given keys. */
  function Only(p: Payload, keys: seq<string>): (r: Payload)
    ensures forall k :: k in r <==> k in p && k in keys
    ensures forall k | k in r :: r[k] == p[k]
  {
    map k | k in p && k in keys :: p[k]
  }

  /** The payload as the task row holds it once written: the integer column stores a `true` priority as 1. */
  function AsStored(p: Payload): (r: Payload)
    ensures r.Keys == p.Keys
    ensures forall k | k in p && k != "priority" :: r[k] == p[k]
    ensures PriorityRule(p) ==> r["priority"].Int? && Denotes(p["priority"], r["priority"].i)
    ensures !PriorityRule(p) && "priority" in p ==> r["priority"] == p["priority"]
  {
    if PriorityRule(p) then p["priority" := Int(IntegerOf(p["priority"]))] else p
  }

  /** The payload a client sends to set exactly the fields `f`. */
  function ToPayload(f: Fields): Payload {
    map["status" := Str(StatusName(f.status)), "priority" := Int(f.priority),
        "title" := Str(f.title), "description" := Str(f.description)]
  }

  /** Validation parses back exactly the fields that were sent, when they are in range. */
  lemma ValidateRoundTrip(f: Fields)
    requires FieldsOk(f)
    ensures Validate(ToPayload(f)) == Success(f)
  {
    var p := ToPayload(f);
    assert Valid(p) by {
      forall k | k in RuleKeys ensures Rule(p, k) {
      }
    }
  }

  /**
   * The parsed fields are exactly the payload restricted to the rule keys
   * (`$request->only(...)`), as the task row stores them.
   */
  lemma ParsedFieldsAreOnly(p: Payload)
    requires Valid(p)
    ensures ToPayload(Validate(p).value) == Only(AsStored(p), RuleKeys)
  {
    var f := Validate(p).value;
    assert ToPayload(f).Keys == Only(AsStored(p), RuleKeys).Keys;
  }

  /** A `true` priority passes and is stored as priority 1. */
  lemma TruePriorityIsOne(f: Fields)
    requires FieldsOk(f)
    ensures Validate(ToPayload(f)["priority" := Bool(true)]) == Success(f.(priority := 1))
    ensures Validate(ToPayload(f)["priority" := Bool(false)]) == Failure(["priority"])
  {
    var t := ToPayload(f)["priority" := Bool(true)];
    var u := ToPayload(f)["priority" := Bool(false)];
    ValidUnfold(t);
    assert Valid(t);
    assert !PriorityRule(u) && StatusRule(u) && TextRule(u, "title") && TextRule(u, "description");
    assert FailingKeys(u) == ["priority"];
  }

  /** A whole-number float priority passes and is stored as that integer; 2.5 is rejected. */
  lemma WholeFloatPriority(f: Fields)
    requires FieldsOk(f)
    ensures Validate(ToPayload(f)["priority" := Float(f.priority as real)]) == Success(f)
    ensures Validate(ToPayload(f)["priority" := Float(2.5)]) == Failure(["priority"])
  {
    var t := ToPayload(f)["priority" := Float(f.priority as real)];
    var u := ToPayload(f)["priority" := Float(2.5)];
    ValidUnfold(t);
    assert Valid(t);
    assert (2.5).Floor == 2;
    assert !PriorityRule(u) && StatusRule(u) && TextRule(u, "title") && TextRule(u, "description");
    assert FailingKeys(u) == ["priority"];
  }

  /** Out-of-range fields are rejected, and only the offending keys are reported. */
  lemma ValidateRejectsBadFields(f: Fields)
    requires !FieldsOk(f)
    ensures Validate(ToPayload(f)).Failure?
    ensures "status" !in Validate(ToPayload(f)).error
  {
    var p := ToPayload(f);
    if f.priority < 1 || f.priority > 5 {
      assert !Rule(p, "priority");
    } else if Blank(f.title) {
      assert !Rule(p, "title");
    } else {
      assert !Rule(p, "description");
    }
  }

  /** Two payloads that agree on `key`. */
  predicate AgreeOn(p: Payload, q: Payload, key: string) {
    (key in p <==> key in q) && (key in p ==> p[key] == q[key])
  }

  /**
   * Validity, the reported keys and the parsed fields depend only on the four
   * rule keys: `children` or any other extra key changes nothing.
   */
  lemma ValidateReadsOnlyRuleKeys(p: Payload, q: Payload)
    requires forall k | k in RuleKeys :: AgreeOn(p, q, k)
    ensures Validate(p) == Validate(q)
  {
    assert AgreeOn(p, q, RuleKeys[0]) && AgreeOn(p, q, RuleKeys[1]);
    assert AgreeOn(p, q, RuleKeys[2]) && AgreeOn(p, q, RuleKeys[3]);
  }

  /** Adding a key outside the rule set (such as `children`) does not change validation. */
  lemma ExtraKeyIgnored(p: Payload, key: string, v: Value)
    requires key !in RuleKeys
    ensures Validate(p[key := v]) == Validate(p)
  {
    ValidateReadsOnlyRuleKeys(p[key := v], p);
  }

  /** Both ends of the priority range are inclusive; 0 and 6 are rejected with `priority` alone. */
  lemma PriorityBoundaries()
    ensures Validate(ToPayload(Fields(Todo, 1, "a", "d"))).Success?
    ensures Validate(ToPayload(Fields(Done, 5, "a", "d"))).Success?
    ensures Validate(ToPayload(Fields(Todo, 0, "a", "d"))) == Failure(["priority"])
    ensures Validate(ToPayload(Fields(Todo, 6, "a", "d"))) == Failure(["priority"])
  {
    assert !Blank("a") by { assert "a"[0] !in TrimChars; }
    assert !Blank("d") by { assert "d"[0] !in TrimChars; }
    ValidateRoundTrip(Fields(Todo, 1, "a", "d"));
    ValidateRoundTrip(Fields(Done, 5, "a", "d"));
    var low := ToPayload(Fields(Todo, 0, "a", "d"));
    assert StatusRule(low) && !PriorityRule(low) && TextRule(low, "title") && TextRule(low, "description");
    assert FailingKeys(low) == ["priority"];
    var high := ToPayload(Fields(Todo, 6, "a", "d"));
    assert StatusRule(high) && !PriorityRule(high) && TextRule(high, "title") && TextRule(high, "description");
    assert FailingKeys(high) == ["priority"];
  }

  /** Empty and whitespace-only strings fail `required`. */
  lemma BlankTextRejected()
    ensures Validate(ToPayload(Fields(Todo, 3, " ", ""))) == Failure(["title", "description"])
  {
    var blank := ToPayload(Fields(Todo, 3, " ", ""));
    assert StatusRule(blank) && PriorityRule(blank) && !TextRule(blank, "title") && !TextRule(blank, "description");
    assert FailingKeys(blank) == ["title", "description"];
  }

  /** A status outside `todo`/`done` is rejected. */
  lemma UnknownStatusRejected()
    ensures Validate(ToPayload(Fields(Todo, 3, "a", "d"))["status" := Str("doing")]) == Failure(["status"])
  {
    assert !Blank("a") by { assert "a"[0] !in TrimChars; }
    assert !Blank("d") by { assert "d"[0] !in TrimChars; }
    var doing := ToPayload(Fields(Todo, 3, "a", "d"))["status" := Str("doing")];
    assert !StatusRule(doing) && PriorityRule(doing) && TextRule(doing, "title") && TextRule(doing, "description");
    assert FailingKeys(doing) == ["status"];
  }

  /** Every key is required: an empty body fails all four rules. */
  lemma EmptyPayloadRejected()
    ensures Validate(map[]) == Failure(RuleKeys)
  {
    assert FailingKeys(map[]) == RuleKeys;
  }

  /** `trim` from the front strips exactly a blank prefix. */
  lemma {:induction false} TrimStartPad(a: string, s: string)
    requires Blank(a) && (s == "" || s[0] !in TrimChars)
    ensures TrimStart(a + s) == s
    decreases |a|
  {
    if a == "" {
      assert a + s == s;
    } else {
      assert (a + s)[0] == a[0];
      assert (a + s)[1..] == a[1..] + s;
      TrimStartPad(a[1..], s);
    }
  }

  /** `trim` from the back strips exactly a blank suffix. */
  lemma {:induction false} TrimEndPad(s: string, b: string)
    requires Blank(b) && (s == "" || s[|s| - 1] !in TrimChars)
    ensures TrimEnd(s + b) == s
    decreases |b|
  {
    if b == "" {
      assert s + b == s;
    } else {
      assert (s + b)[|s + b| - 1] == b[|b| - 1];
      assert (s + b)[..|s + b| - 1] == s + b[..|b| - 1];
      TrimEndPad(s, b[..|b| - 1]);
    }
  }

  /** `trim` removes blank padding on both sides of a string that has none of its own. */
  lemma TrimPadded(a: string, s: string, b: string)
    requires Blank(a) && Blank(b) && s != "" && Trimmed(s)
    ensures Trim(a + s + b) == s
  {
    assert a + s + b == a + (s + b);
    assert (s + b)[0] == s[0];
    TrimStartPad(a, s + b);
    TrimEndPad(s, b);
  }

  /** A field value padded with blanks on either side. */
  function Pad(a: string, s: string, b: string): Value {
    Str(a + s + b)
  }

  /** The middleware strips blank padding from a value and keeps the rest. */
  lemma CleanPadded(a: string, s: string, b: string)
    requires Blank(a) && Blank(b) && s != "" && Trimmed(s)
    ensures Clean(Pad(a, s, b)) == Str(s)
  {
    TrimPadded(a, s, b);
  }

  /** `CleanPadded`, read at one key of a body. */
  lemma CleanPaddedKey(p: Payload, k: string, a: string, s: string, b: string)
    requires Blank(a) && Blank(b) && s != "" && Trimmed(s)
    requires k in p && p[k] == Pad(a, s, b)
    ensures k in CleanPayload(p) && CleanPayload(p)[k] == Str(s)
  {
    CleanPadded(a, s, b);
  }

  /** The middleware leaves values that are not strings alone. */
  lemma CleanKeepsNonString(p: Payload, k: string)
    requires k in p && !p[k].Str?
    ensures k in CleanPayload(p) && CleanPayload(p)[k] == p[k]
  {
  }

  /** Both status names are non-empty and unpadded. */
  lemma StatusNameTrimmed(s: Status)
    ensures StatusName(s) != "" && Trimmed(StatusName(s))
  {
  }

  /** A body carrying the four values of in-range fields, whatever else it holds, validates to those fields. */
  lemma ValidateCarried(p: Payload, f: Fields)
    requires FieldsOk(f)
    requires "status" in p && p["status"] == Str(StatusName(f.status))
    requires "priority" in p && p["priority"] == Int(f.priority)
    requires "title" in p && p["title"] == Str(f.title)
    requires "description" in p && p["description"] == Str(f.description)
    ensures Validate(p) == Success(f)
  {
    ValidUnfold(p);
  }

  /** The middleware on a string that is not blank: its trimmed form. */
  lemma CleanTextKey(p: Payload, k: string)
    requires k in p && p[k].Str? && !Blank(p[k].s)
    ensures k in CleanPayload(p) && CleanPayload(p)[k] == Str(Trim(p[k].s))
  {
  }

  /** The fields as they reach the store through the middleware: title and description trimmed. */
  function TrimFields(f: Fields): Fields {
    f.(title := Trim(f.title), description := Trim(f.description))
  }

  /** Trimming keeps in-range fields in range. */
  lemma TrimFieldsOk(f: Fields)
    requires FieldsOk(f)
    ensures FieldsOk(TrimFields(f))
  {
    TrimIdempotent(f.title);
    TrimIdempotent(f.description);
  }

  /**
   * A body carrying in-range fields, sent through the middleware, validates
   * to those fields with the title and description trimmed.
   */
  lemma ValidateCleaned(p: Payload, f: Fields)
    requires FieldsOk(f)
    requires "status" in p && p["status"] == Str(StatusName(f.status))
    requires "priority" in p && p["priority"] == Int(f.priority)
    requires "title" in p && p["title"] == Str(f.title)
    requires "description" in p && p["description"] == Str(f.description)
    ensures Validate(CleanPayload(p)) == Success(TrimFields(f))
  {
    StatusNameTrimmed(f.status);
    TrimKeepsTrimmed(StatusName(f.status));
    CleanTextKey(p, "status");
    CleanTextKey(p, "title");
    CleanTextKey(p, "description");
    CleanKeepsNonString(p, "priority");
    TrimFieldsOk(f);
    ValidateCarried(CleanPayload(p), TrimFields(f));
  }

  /**
   * What the validator sees is the cleaned body: a status, title and
   * description padded with blanks validate, and are stored, without the
   * padding.
   */
  lemma PaddedFieldsTrimmed(p: Payload, f: Fields, a: string, b: string)
    requires FieldsOk(f) && Trimmed(f.title) && Trimmed(f.description)
    requires Blank(a) && Blank(b)
    requires "status" in p && p["status"] == Pad(a, StatusName(f.status), b)
    requires "priority" in p && p["priority"] == Int(f.priority)
    requires "title" in p && p["title"] == Pad(a, f.title, b)
    requires "description" in p && p["description"] == Pad(a, f.description, b)
    ensures Validate(CleanPayload(p)) == Success(f)
  {
    StatusNameTrimmed(f.status);
    CleanPaddedKey(p, "status", a, StatusName(f.status), b);
    CleanPaddedKey(p, "title", a, f.title, b);
    CleanPaddedKey(p, "description", a, f.description, b);
    CleanKeepsNonString(p, "priority");
    ValidateCarried(CleanPayload(p), f);
  }
}

=== FILE: service.dfy ===
/**
 * Creating a task together with its nested children
 * (app/Services/TaskService.php): the root payload is validated and, if it
 * passes, stored; then every child spec is validated in turn, an invalid
 * one skipped together with its whole subtree, a valid one stored, linked
 * to its immediate parent with the current nesting level as `depth`, and
 * its own children processed before its next sibling.
 */
module TaskService {
  import opened Results
  import opened TaskRules
  import opened Relationships
  import opened TaskModel

  /** A task spec as the client sends it: a payload and its nested `children`. */
  datatype Spec = Spec(payload: Payload, children: seq<Spec>)

  /** A spec that passed validation, with its surviving children. */
  datatype Node = Node(fields: Fields, children: seq<Node>)

  /**
   * The specs that will be created: those whose payload is valid and whose
   * ancestors' payloads are all valid.
   */
  function Prune(specs: seq<Spec>): seq<Node>
    decreases specs
  {
    if |specs| == 0 then []
    else
      match Validate(specs[0].payload)
      case Failure(_) => Prune(specs[1..])
      case Success(f) => [Node(f, Prune(specs[0].children))] + Prune(specs[1..])
  }

  /** The fields of a validated forest in depth-first pre-order. */
  function Flatten(nodes: seq<Node>): seq<Fields>
    decreases nodes
  {
    if |nodes| == 0 then []
    else [nodes[0].fields] + Flatten(nodes[0].children) + Flatten(nodes[1..])
  }

  /** Every row ends at one of the ids `[first, first + count)`. */
  predicate EndsIn(r: set<Edge>, first: TaskId, count: nat) {
    forall e | e in r :: first <= e.descendant < first + count
  }

  /** Every id in `[first, first + count)` is the descendant of some row. */
  predicate Covers(r: set<Edge>, first: TaskId, count: nat) {
    forall d: TaskId | first <= d < first + count :: d in Descendants(r)
  }

  /** Every row starts at `parent` or at an earlier new id. */
  predicate FromParentOrEarlier(r: set<Edge>, parent: TaskId, first: TaskId) {
    forall e | e in r :: e.ancestor == parent || first <= e.ancestor < e.descendant
  }

  /** Rows from `parent` carry `depth`; no row carries less. */
  predicate DepthFrom(r: set<Edge>, parent: TaskId, depth: int) {
    && (forall e | e in r :: e.ancestor == parent ==> e.depth == depth)
    && (forall e | e in r :: e.depth >= depth)
  }

  /**
   * The shape of the rows written for a forest of `count` nodes hanging below
   * `parent` at `depth`, with ids `[first, first + count)`: each new id is
   * the descendant of exactly one row; every row comes from `parent` or from
   * an earlier new id; rows from `parent` carry `depth`, and each row one
   * level further down carries one more.
   */
  predicate Shaped(r: set<Edge>, parent: TaskId, depth: int, first: TaskId, count: nat) {
    && EndsIn(r, first, count)
    && Covers(r, first, count)
    && FromParentOrEarlier(r, parent, first)
    && DepthFrom(r, parent, depth)
    && OneInto(r)
    && ChainIn(r)
  }

  /*
   * The lemmas below join the rows of a node (its row from `parent`), of its
   * subtree (`below`, new ids `[first + 1, first + 1 + n1)`) and of its later
   * siblings (`after`, new ids `[first + 1 + n1, first + 1 + n1 + n2)`).
   */

  lemma JoinCovers(r: set<Edge>, below: set<Edge>, after: set<Edge>, parent: TaskId, depth: int,
                   first: TaskId, n1: nat, n2: nat)
    requires r == {Edge(parent, first, depth)} + below + after
    requires Covers(below, first + 1, n1) && Covers(after, first + 1 + n1, n2)
    ensures Covers(r, first, 1 + n1 + n2)
  {
    assert Descendants(r) == {first} + Descendants(below) + Descendants(after);
  }

  lemma JoinOneInto(r: set<Edge>, below: set<Edge>, after: set<Edge>, parent: TaskId, depth: int,
                    first: TaskId, n1: nat, n2: nat)
    requires r == {Edge(parent, first, depth)} + below + after
    requires EndsIn(below, first + 1, n1) && EndsIn(after, first + 1 + n1, n2)
    requires OneInto(below) && OneInto(after)
    ensures OneInto(r)
  {
    forall e | e in r ensures forall f | f in Into(r, e.descendant) :: f == e {
      forall f | f in Into(r, e.descendant) ensures f == e {
        if e in below && f in below {
          assert f in Into(below, e.descendant);
        } else if e in after && f in after {
          assert f in Into(after, e.descendant);
        }
      }
    }
  }

  lemma JoinChainIn(r: set<Edge>, below: set<Edge>, after: set<Edge>, parent: TaskId, depth: int,
                    first: TaskId, n1: nat, n2: nat)
    requires parent < first
    requires r == {Edge(parent, first, depth)} + below + after
    requires EndsIn(below, first + 1, n1) && EndsIn(after, first + 1 + n1, n2)
    requires FromParentOrEarlier(below, first, first + 1) && FromParentOrEarlier(after, parent, first + 1 + n1)
    requires DepthFrom(below, first, depth + 1)
    requires ChainIn(below) && ChainIn(after)
    ensures ChainIn(r)
  {
    var top := Edge(parent, first, depth);
    forall e | e in r ensures forall f | f in Into(r, e.ancestor) :: e.depth == f.depth + 1 {
      forall f | f in Into(r, e.ancestor) ensures e.depth == f.depth + 1 {
        if e == top {
          assert false;
        } else if e in below {
          if e.ancestor == first {
            assert f == top;
          } else {
            assert f in Into(below, e.ancestor);
          }
        } else {
          assert f in Into(after, e.ancestor);
        }
      }
    }
  }

  /** A node's row, its subtree's rows and its later siblings' rows join into one shaped set. */
  lemma JoinShaped(r: set<Edge>, below: set<Edge>, after: set<Edge>, parent: TaskId, depth: int,
                   first: TaskId, n1: nat, n2: nat)
    requires parent < first
    requires r == {Edge(parent, first, depth)} + below + after
    requires Shaped(below, first, depth + 1, first + 1, n1)
    requires Shaped(after, parent, depth, first + 1 + n1, n2)
    ensures Shaped(r, parent, depth, first, 1 + n1 + n2)
  {
    JoinCovers(r, below, after, parent, depth, first, n1, n2);
    JoinOneInto(r, below, after, parent, depth, first, n1, n2);
    JoinChainIn(r, below, after, parent, depth, first, n1, n2);
  }

  /**
   * The relationship rows for a validated forest whose top-level nodes hang
   * below `parent` at `depth`, with ids handed out in pre-order from `first`:
   * one row per node, from its immediate parent, and no other.
   */
  function Layout(nodes: seq<Node>, parent: TaskId, depth: int, first: TaskId): set<Edge>
    decreases nodes
  {
    if |nodes| == 0 then {}
    else
      {Edge(parent, first, depth)}
      + Layout(nodes[0].children, first, depth + 1, first + 1)
      + Layout(nodes[1..], parent, depth, first + 1 + |Flatten(nodes[0].children)|)
  }

  /** The layout of any validated forest below an earlier parent is shaped. */
  lemma {:induction false} LayoutShaped(nodes: seq<Node>, parent: TaskId, depth: int, first: TaskId)
    requires parent < first
    ensures Shaped(Layout(nodes, parent, depth, first), parent, depth, first, |Flatten(nodes)|)
    decreases nodes
  {
    if |nodes| > 0 {
      var n1 := |Flatten(nodes[0].children)|;
      var n2 := |Flatten(nodes[1..])|;
      var below := Layout(nodes[0].children, first, depth + 1, first + 1);
      var after := Layout(nodes[1..], parent, depth, first + 1 + n1);
      LayoutShaped(nodes[0].children, first, depth + 1, first + 1);
      LayoutShaped(nodes[1..], parent, depth, first + 1 + n1);
      JoinShaped(Layout(nodes, parent, depth, first), below, after, parent, depth, first, n1, n2);
    }
  }

  /** The tasks created for `fields`, taken in order, with ids from `first`. */
  function Created(fields: seq<Fields>, user: UserId, now: int, first: TaskId): map<TaskId, Task> {
    var ids := Range(first, first + |fields|);
    map k | k in ids :: NewTask(user, fields[k - first], now)
  }

  /** The created tasks take exactly the ids from `first` up to `first + |fields|`. */
  lemma CreatedKeys(fields: seq<Fields>, user: UserId, now: int, first: TaskId)
    ensures Created(fields, user, now, first).Keys == Range(first, first + |fields|)
  {
  }

  /** As many tasks are created as there are fields, all with ids from `first` on. */
  lemma CreatedSize(fields: seq<Fields>, user: UserId, now: int, first: TaskId)
    ensures |Created(fields, user, now, first)| == |fields|
    ensures forall id | id in Created(fields, user, now, first) :: first <= id
  {
    var hi := first + |fields|;
    CreatedKeys(fields, user, now, first);
    RangeSize(first, hi);
    SizeFromKeys(Created(fields, user, now, first), Range(first, hi));
  }

  /** A map has as many entries as its key set has elements. */
  lemma SizeFromKeys<K, V>(m: map<K, V>, keys: set<K>)
    requires m.Keys == keys
    ensures |m| == |keys|
  {
  }

  /** `m` holds exactly the ids `[first, first + |fields|)`, the i-th a new task of `user` with the i-th fields. */
  ghost predicate Issued(m: map<TaskId, Task>, fields: seq<Fields>, user: UserId, now: int, first: TaskId) {
    && (forall k :: k in m <==> first <= k < first + |fields|)
    && (forall k | k in m :: m[k] == NewTask(user, fields[k - first], now))
  }

  /** The i-th fields become the task with id `first + i`, and no other ids are used. */
  lemma CreatedTasks(fields: seq<Fields>, user: UserId, now: int, first: TaskId)
    ensures forall k :: k in Created(fields, user, now, first) <==> first <= k < first + |fields|
    ensures forall k | k in Created(fields, user, now, first) ::
              Created(fields, user, now, first)[k] == NewTask(user, fields[k - first], now)
  {
  }

  /** The same, as one predicate. */
  lemma CreatedIssued(fields: seq<Fields>, user: UserId, now: int, first: TaskId)
    ensures Issued(Created(fields, user, now, first), fields, user, now, first)
  {
    CreatedTasks(fields, user, now, first);
  }

  /** Creating two runs of tasks one after the other. */
  lemma CreatedAppend(a: seq<Fields>, b: seq<Fields>, user: UserId, now: int, first: TaskId)
    ensures Created(a + b, user, now, first) == Created(a, user, now, first) + Created(b, user, now, first + |a|)
  {
    CreatedIssued(a + b, user, now, first);
    CreatedIssued(a, user, now, first);
    CreatedIssued(b, user, now, first + |a|);
    IssuedAppend(Created(a + b, user, now, first), Created(a, user, now, first), Created(b, user, now, first + |a|),
                 a, b, user, now, first);
  }

  /** Two consecutive issued batches together are the batch issued for the concatenated fields. */
  lemma IssuedAppend(whole: map<TaskId, Task>, left: map<TaskId, Task>, right: map<TaskId, Task>,
                     a: seq<Fields>, b: seq<Fields>, user: UserId, now: int, first: TaskId)
    requires Issued(whole, a + b, user, now, first)
    requires Issued(left, a, user, now, first)
    requires Issued(right, b, user, now, first + |a|)
    ensures whole == left + right
  {
    var joined := left + right;
    assert whole.Keys == joined.Keys;
    forall k | k in whole ensures whole[k] == joined[k] {
      if k < first + |a| {
        assert k in left && (a + b)[k - first] == a[k - first];
      } else {
        assert k in right && (a + b)[k - first] == b[k - (first + |a|)];
      }
    }
  }

  /** The guarantees `SaveChildren` gives: the pruned forest's tasks in pre-order, and its layout rows. */
  predicate Saved(db: Db, r: Db, user: UserId, now: int, parent: TaskId, nodes: seq<Node>, depth: int)
    requires parent < db.nextId
  {
    && r.users == db.users
    && r.nextId == db.nextId + |Flatten(nodes)|
    && r.tasks == db.tasks + Created(Flatten(nodes), user, now, db.nextId)
    && r.edges == db.edges + Layout(nodes, parent, depth, db.nextId)
  }

  /**
   * The rows of a non-empty forest: its first node's row, that node's
   * subtree, then its later siblings. `next` and `after` name the first ids
   * of the subtree and of the siblings; naming them keeps the proofs small.
   */
  lemma LayoutCons(node: Node, rest: seq<Node>, parent: TaskId, depth: int, first: TaskId, next: TaskId, after: TaskId)
    requires next == first + 1 && after == next + |Flatten(node.children)|
    ensures Layout([node] + rest, parent, depth, first)
         == {Edge(parent, first, depth)} + Layout(node.children, first, depth + 1, next)
            + Layout(rest, parent, depth, after)
  {
    var nodes := [node] + rest;
    assert nodes[0] == node && nodes[1..] == rest;
  }

  /** Set union regrouped. */
  lemma Regroup<T>(a: set<T>, b: set<T>, c: set<T>, d: set<T>)
    ensures a + b + c + d == a + (b + c + d)
  {
  }

  /**
   * The rows of a node, then of its subtree, then of its later siblings, are
   * the rows of the whole forest. `linked`, `mid` and `last` are the row sets
   * after each of the three steps.
   */
  lemma StepEdges(edges: set<Edge>, linked: set<Edge>, mid: set<Edge>, last: set<Edge>,
                  parent: TaskId, first: TaskId, next: TaskId, after: TaskId, depth: int, node: Node, rest: seq<Node>)
    requires next == first + 1 && after == next + |Flatten(node.children)|
    requires linked == edges + {Edge(parent, first, depth)}
    requires mid == linked + Layout(node.children, first, depth + 1, next)
    requires last == mid + Layout(rest, parent, depth, after)
    ensures last == edges + Layout([node] + rest, parent, depth, first)
  {
    LayoutCons(node, rest, parent, depth, first, next, after);
    Regroup(edges, {Edge(parent, first, depth)}, Layout(node.children, first, depth + 1, next),
            Layout(rest, parent, depth, after));
  }

  /**
   * The tasks of a node, then of its subtree, then of its later siblings, are
   * the tasks of the whole forest. `linked`, `mid` and `last` are the task
   * maps after each of the three steps.
   */
  lemma StepTasks(tasks: map<TaskId, Task>, linked: map<TaskId, Task>, mid: map<TaskId, Task>, last: map<TaskId, Task>,
                  user: UserId, now: int, first: TaskId, next: TaskId, after: TaskId,
                  f: Fields, fc: seq<Fields>, fr: seq<Fields>, flat: seq<Fields>)
    requires next == first + 1 && after == next + |fc| && flat == [f] + fc + fr
    requires linked == tasks[first := NewTask(user, f, now)]
    requires mid == linked + Created(fc, user, now, next)
    requires last == mid + Created(fr, user, now, after)
    ensures last == tasks + Created(flat, user, now, first)
  {
    assert flat[0] == f && flat[1..] == fc + fr;
    CreatedHead(flat, user, now, first, next);
    CreatedAppend(fc, fr, user, now, next);
    MapStep(tasks, first, NewTask(user, f, now), Created(fc, user, now, next), Created(fr, user, now, after));
  }

  /** The batch for a non-empty sequence of fields: its first task, then the rest from the next id. */
  lemma CreatedHead(fields: seq<Fields>, user: UserId, now: int, first: TaskId, next: TaskId)
    requires |fields| > 0 && next == first + 1
    ensures Created(fields, user, now, first)
         == map[first := NewTask(user, fields[0], now)] + Created(fields[1..], user, now, next)
  {
    CreatedIssued(fields, user, now, first);
    CreatedIssued(fields[1..], user, now, next);
    IssuedCons(Created(fields, user, now, first), Created(fields[1..], user, now, next), fields, user, now, first);
  }

  /** An issued batch is its first task in front of the rest of the batch. */
  lemma IssuedCons(m: map<TaskId, Task>, rest: map<TaskId, Task>, fields: seq<Fields>, user: UserId, now: int,
                   first: TaskId)
    requires |fields| > 0
    requires Issued(m, fields, user, now, first) && Issued(rest, fields[1..], user, now, first + 1)
    ensures m == map[first := NewTask(user, fields[0], now)] + rest
  {
    var joined := map[first := NewTask(user, fields[0], now)] + rest;
    assert m.Keys == joined.Keys;
    forall k | k in rest ensures fields[k - first] == fields[1..][k - (first + 1)] {
    }
  }

  /** Storing one entry and then two batches is storing the entry and both batches at once. */
  lemma MapStep<K, V>(m: map<K, V>, k: K, v: V, a: map<K, V>, b: map<K, V>)
    ensures (m[k := v] + a) + b == m + (map[k := v] + (a + b))
  {
  }


  /** Storing a valid node, then its subtree, then its later siblings, is storing the whole forest. */
  lemma SaveStep(db: Db, linked: Db, below: Db, r: Db, user: UserId, now: int, parent: TaskId,
                 node: Node, rest: seq<Node>, depth: int)
    requires parent < db.nextId
    requires linked == db.(tasks := db.tasks[db.nextId := NewTask(user, node.fields, now)],
                           nextId := db.nextId + 1,
                           edges := db.edges + {Edge(parent, db.nextId, depth)})
    requires Saved(linked, below, user, now, db.nextId, node.children, depth + 1)
    requires Saved(below, r, user, now, parent, rest, depth)
    ensures Saved(db, r, user, now, parent, [node] + rest, depth)
  {
    var nodes := [node] + rest;
    assert nodes[0] == node && nodes[1..] == rest;
    assert Flatten(nodes) == [node.fields] + Flatten(node.children) + Flatten(rest);
    StepEdges(db.edges, linked.edges, below.edges, r.edges, parent, db.nextId, linked.nextId, below.nextId,
              depth, node, rest);
    StepTasks(db.tasks, linked.tasks, below.tasks, r.tasks, user, now, db.nextId, linked.nextId, below.nextId,
              node.fields, Flatten(node.children), Flatten(rest), Flatten(nodes));
  }

  /**
   * `saveChildren`: creates the valid children of `parent`, depth first,
   * all owned by `user`, and links each to its immediate parent with the
   * nesting level `depth`. An invalid child is skipped with its whole
   * subtree; its later siblings are still processed.
   */
  function SaveChildren(db: Db, user: UserId, now: int, parent: TaskId, children: seq<Spec>, depth: int): (r: Db)
    requires parent < db.nextId
    ensures Saved(db, r, user, now, parent, Prune(children), depth)
    decreases children
  {
    if |children| == 0 then db
    else
      match Validate(children[0].payload)
      case Failure(_) => SaveChildren(db, user, now, parent, children[1..], depth)
      case Success(f) =>
        var id := db.nextId;
        var created := db.(tasks := db.tasks[id := NewTask(user, f, now)], nextId := id + 1);
        var linked := created.(edges := Attach(created.edges, parent, id, depth));
        var below := SaveChildren(linked, user, now, id, children[0].children, depth + 1);
        var r := SaveChildren(below, user, now, parent, children[1..], depth);
        SaveStep(db, linked, below, r, user, now, parent, Node(f, Prune(children[0].children)),
                 Prune(children[1..]), depth);
        r
  }

  /** What `saveTasks` hands back: the new database and either the root's id or the failing keys. */
  datatype SaveResult = SaveResult(db: Db, result: Result<TaskId, seq<string>>)

  /**
   * `saveTasks`: validates the root payload; if it fails nothing is written
   * and the failing keys are returned; otherwise the root is stored with
   * exactly its four payload fields, owned by `user`, and its children are
   * saved below it starting at depth 0.
   */
  function SaveTasks(db: Db, user: UserId, request: Spec, now: int): (r: SaveResult)
    ensures !Valid(request.payload) ==> r == SaveResult(db, Failure(FailingKeys(request.payload)))
    ensures r.result.Success? <==> Valid(request.payload)
    ensures r.result.Success? ==>
              && r.result.value == db.nextId
              && db.nextId in r.db.tasks
              && r.db.tasks[db.nextId] == NewTask(user, Validate(request.payload).value, now)
              && r.db.nextId == db.nextId + 1 + |Flatten(Prune(request.children))|
              && r.db.users == db.users
  {
    match Validate(request.payload)
    case Failure(errors) => SaveResult(db, Failure(errors))
    case Success(f) =>
      var root := db.nextId;
      var created := db.(tasks := db.tasks[root := NewTask(user, f, now)], nextId := root + 1);
      SaveResult(SaveChildren(created, user, now, root, request.children, 0), Success(root))
  }

  /** What a successful `saveTasks` writes: the root at the next id, then the pruned children's tasks and rows. */
  lemma SaveTasksWrites(db: Db, user: UserId, request: Spec, now: int)
    requires Valid(request.payload)
    ensures var r := SaveTasks(db, user, request, now).db;
            var nodes := Prune(request.children);
            && r.users == db.users
            && r.nextId == db.nextId + 1 + |Flatten(nodes)|
            && r.tasks == db.tasks[db.nextId := NewTask(user, Validate(request.payload).value, now)]
                          + Created(Flatten(nodes), user, now, db.nextId + 1)
            && r.edges == db.edges + Layout(nodes, db.nextId, 0, db.nextId + 1)
  {
    var f := Validate(request.payload).value;
    var created := db.(tasks := db.tasks[db.nextId := NewTask(user, f, now)], nextId := db.nextId + 1);
    assert SaveTasks(db, user, request, now).db == SaveChildren(created, user, now, db.nextId, request.children, 0);
  }
}

=== FILE: service_props.dfy ===
/**
 * What one call of `saveTasks` leaves behind in the database: the invariant
 * kept, the tasks created and their owner, one row per created child from
 * its immediate parent, depth equal to the nesting level, and a subtree that
 * `getNestedChildren` reaches in full.
 */
module TaskServiceProperties {
  import opened Results
  import opened TaskRules
  import opened Relationships
  import opened TaskModel
  import opened TaskService

  /** Which ids the tasks map holds after a successful call: the old ones and the freshly issued ones. */
  lemma StoredKeys(db: Db, tasks: map<TaskId, Task>, root: Task, later: map<TaskId, Task>, created: seq<Fields>,
                   user: UserId, now: int)
    requires Issued(later, created, user, now, db.nextId + 1)
    requires tasks == db.tasks[db.nextId := root] + later
    ensures forall id :: id in tasks <==> id in db.tasks || db.nextId <= id < db.nextId + 1 + |created|
  {
  }

  /** Tasks stored before the call keep their values. */
  lemma StoredOld(db: Db, tasks: map<TaskId, Task>, root: Task, later: map<TaskId, Task>, created: seq<Fields>,
                  user: UserId, now: int)
    requires IdsIssued(db) && Issued(later, created, user, now, db.nextId + 1)
    requires tasks == db.tasks[db.nextId := root] + later
    ensures forall id | id in db.tasks :: tasks[id] == db.tasks[id]
  {
    forall id | id in db.tasks ensures tasks[id] == db.tasks[id] {
      assert id !in later;
    }
  }

  /** The created children take the ids after the root, in the order of `created`. */
  lemma StoredNew(db: Db, tasks: map<TaskId, Task>, root: Task, later: map<TaskId, Task>, created: seq<Fields>,
                  user: UserId, now: int)
    requires Issued(later, created, user, now, db.nextId + 1)
    requires tasks == db.tasks[db.nextId := root] + later
    ensures forall id | db.nextId < id < db.nextId + 1 + |created| ::
              id in tasks && tasks[id] == NewTask(user, created[id - db.nextId - 1], now)
  {
    forall id | db.nextId < id < db.nextId + 1 + |created|
      ensures id in tasks && tasks[id] == NewTask(user, created[id - db.nextId - 1], now)
    {
      assert id in later;
    }
  }

  /** Every task the call stores, root included, belongs to `user` and is stamped `now`. */
  lemma StoredOwners(db: Db, tasks: map<TaskId, Task>, root: Task, later: map<TaskId, Task>, created: seq<Fields>,
                     user: UserId, now: int)
    requires root.owner == user && root.createdAt == now
    requires Issued(later, created, user, now, db.nextId + 1)
    requires tasks == db.tasks[db.nextId := root] + later
    ensures forall id | db.nextId <= id < db.nextId + 1 + |created| :: tasks[id].owner == user && tasks[id].createdAt == now
  {
    assert db.nextId !in later;
    forall id | db.nextId <= id < db.nextId + 1 + |created|
      ensures tasks[id].owner == user && tasks[id].createdAt == now
    {
      if id > db.nextId {
        assert id in later;
      }
    }
  }

  /**
   * `tasks` is `db`'s tasks plus a root at `db.nextId` and the tasks for
   * `created` in order after it, all owned by `user` and stamped `now`.
   */
  ghost predicate StoredAs(db: Db, tasks: map<TaskId, Task>, created: seq<Fields>, user: UserId, now: int) {
    && (forall id :: id in tasks <==> id in db.tasks || db.nextId <= id < db.nextId + 1 + |created|)
    && (forall id | id in db.tasks :: tasks[id] == db.tasks[id])
    && (forall id | db.nextId < id < db.nextId + 1 + |created| ::
          tasks[id] == NewTask(user, created[id - db.nextId - 1], now))
    && (forall id | db.nextId <= id < db.nextId + 1 + |created| ::
          tasks[id].owner == user && tasks[id].createdAt == now)
  }

  /** The tasks map a successful call leaves, described pointwise. */
  lemma StoredAll(db: Db, tasks: map<TaskId, Task>, root: Task, later: map<TaskId, Task>,
                  created: seq<Fields>, user: UserId, now: int)
    requires IdsIssued(db) && root.owner == user && root.createdAt == now
    requires Issued(later, created, user, now, db.nextId + 1)
    requires tasks == db.tasks[db.nextId := root] + later
    ensures StoredAs(db, tasks, created, user, now)
  {
    StoredKeys(db, tasks, root, later, created, user, now);
    StoredOld(db, tasks, root, later, created, user, now);
    StoredNew(db, tasks, root, later, created, user, now);
    StoredOwners(db, tasks, root, later, created, user, now);
  }

  /**
   * Every task a call creates is owned by the acting user and stamped with
   * `now`; the children follow the root in depth-first pre-order, each with
   * exactly its own payload's fields; tasks that existed before are untouched.
   */
  lemma SaveTasksCreated(db: Db, user: UserId, request: Spec, now: int)
    requires Wf(db) && Valid(request.payload)
    ensures var r := SaveTasks(db, user, request, now).db;
            var created := Flatten(Prune(request.children));
            && r.nextId == db.nextId + 1 + |created|
            && StoredAs(db, r.tasks, created, user, now)
  {
    var r := SaveTasks(db, user, request, now).db;
    var created := Flatten(Prune(request.children));
    SaveTasksWrites(db, user, request, now);
    CreatedIssued(created, user, now, db.nextId + 1);
    StoredAll(db, r.tasks, NewTask(user, Validate(request.payload).value, now),
              Created(created, user, now, db.nextId + 1), created, user, now);
  }

  /** A call adds one task for the root and one for every child that survives pruning. */
  lemma SaveTasksCount(db: Db, user: UserId, request: Spec, now: int)
    requires Wf(db) && Valid(request.payload)
    ensures |SaveTasks(db, user, request, now).db.tasks| == |db.tasks| + 1 + |Flatten(Prune(request.children))|
  {
    var created := Flatten(Prune(request.children));
    SaveTasksWrites(db, user, request, now);
    CreatedSize(created, user, now, db.nextId + 1);
    CountFresh(db.tasks, db.nextId, NewTask(user, Validate(request.payload).value, now),
               Created(created, user, now, db.nextId + 1), SaveTasks(db, user, request, now).db.tasks, |created|);
  }

  /** One fresh entry and a batch of `n` entries with higher ids add `1 + n` entries. */
  lemma CountFresh(m: map<TaskId, Task>, k: TaskId, v: Task, later: map<TaskId, Task>, r: map<TaskId, Task>, n: nat)
    requires forall id | id in m :: id < k
    requires forall id | id in later :: k < id
    requires |later| == n && r == m[k := v] + later
    ensures |r| == |m| + 1 + n
  {
    var front := m[k := v];
    assert front.Keys == m.Keys + {k};
    assert front.Keys !! later.Keys;
    assert r.Keys == front.Keys + later.Keys;
    assert |later| == |later.Keys| && |r| == |r.Keys| && |m| == |m.Keys|;
    DisjointUnionSize(front.Keys, later.Keys);
  }

  /** Disjoint sets add up. */
  lemma DisjointUnionSize<T>(a: set<T>, b: set<T>)
    requires a !! b
    ensures |a + b| == |a| + |b|
  {
    assert a * b == {};
  }

  /** An invalid root writes nothing and reports its failing keys. */
  lemma SaveTasksRejects(db: Db, user: UserId, request: Spec, now: int)
    requires !Valid(request.payload)
    ensures SaveTasks(db, user, request, now).db == db
    ensures SaveTasks(db, user, request, now).result == Failure(FailingKeys(request.payload))
  {
  }

  /** The rows written by a call are shaped and touch only the tasks it created. */
  lemma NewRowsShaped(db: Db, user: UserId, request: Spec, now: int)
    requires Wf(db) && Valid(request.payload)
    ensures var r := SaveTasks(db, user, request, now).db;
            var added := Layout(Prune(request.children), db.nextId, 0, db.nextId + 1);
            && r.edges == db.edges + added
            && r.nextId == db.nextId + 1 + |Flatten(Prune(request.children))|
            && Shaped(added, db.nextId, 0, db.nextId + 1, |Flatten(Prune(request.children))|)
            && SingleParent(added) && DepthChain(added)
            && (forall e | e in added :: db.nextId <= e.ancestor < e.descendant < r.nextId)
            && (forall e | e in db.edges :: e.ancestor < e.descendant < db.nextId)
  {
    var nodes := Prune(request.children);
    SaveTasksWrites(db, user, request, now);
    LayoutShaped(nodes, db.nextId, 0, db.nextId + 1);
    ShapedRows(Layout(nodes, db.nextId, 0, db.nextId + 1), db.nextId, db.nextId + 1, |Flatten(nodes)|,
               SaveTasks(db, user, request, now).db.nextId);
  }

  /** Shaped rows below `parent` have single parents, chained depths, and run forward within the new ids. */
  lemma ShapedRows(added: set<Edge>, parent: TaskId, first: TaskId, count: nat, hi: TaskId)
    requires parent < first && hi == first + count && Shaped(added, parent, 0, first, count)
    ensures SingleParent(added) && DepthChain(added)
    ensures forall e | e in added :: parent <= e.ancestor < e.descendant < hi
  {
    OneIntoSingleParent(added);
    ChainInDepthChain(added);
  }

  /** A successful call keeps every database invariant: keys, foreign keys and the forest shape. */
  lemma SaveTasksKeepsWf(db: Db, user: UserId, request: Spec, now: int)
    requires Wf(db)
    ensures Wf(SaveTasks(db, user, request, now).db)
  {
    if Valid(request.payload) {
      var r := SaveTasks(db, user, request, now).db;
      var added := Layout(Prune(request.children), db.nextId, 0, db.nextId + 1);
      SaveTasksCreated(db, user, request, now);
      NewRowsShaped(db, user, request, now);
      assert Increasing(r.edges);
      assert SingleParent(r.edges);
      assert DepthChain(r.edges) by {
        forall e, f | e in r.edges && f in r.edges && f.descendant == e.ancestor
          ensures e.depth == f.depth + 1
        {
          if e in added {
            assert f in added;
          } else {
            assert f in db.edges;
          }
        }
      }
      assert NonNegativeDepth(r.edges);
      assert ForeignKeys(r.tasks, r.edges);
    }
  }

  /** Some row into `j` starts at or after `root`. */
  predicate HangsFrom(edges: set<Edge>, root: TaskId, j: TaskId) {
    exists e | e in edges :: e.descendant == j && root <= e.ancestor
  }

  /** Every id in `(root, bound)` hangs from a row whose ancestor is at least `root`. */
  predicate Hanging(edges: set<Edge>, root: TaskId, bound: TaskId) {
    forall j: TaskId | root < j < bound :: HangsFrom(edges, root, j)
  }

  /** Every task a successful call creates below the root hangs from a row inside the new subtree. */
  lemma SaveTasksHanging(db: Db, user: UserId, request: Spec, now: int)
    requires Wf(db) && Valid(request.payload)
    ensures var r := SaveTasks(db, user, request, now).db;
            Hanging(r.edges, db.nextId, r.nextId)
  {
    var r := SaveTasks(db, user, request, now).db;
    var added := Layout(Prune(request.children), db.nextId, 0, db.nextId + 1);
    NewRowsShaped(db, user, request, now);
    forall j: TaskId | db.nextId < j < r.nextId ensures HangsFrom(r.edges, db.nextId, j) {
      assert j in Descendants(added);
      var e :| e in added && e.descendant == j;
      assert e in r.edges;
    }
  }

  /** In a forest, an id that hangs below `root` has exactly one parent row, from `root` or later. */
  lemma OneParentEach(edges: set<Edge>, root: TaskId, bound: TaskId)
    requires Increasing(edges) && SingleParent(edges) && Hanging(edges, root, bound)
    ensures forall id: TaskId | root < id < bound ::
              |ParentTasks(edges, id)| == 1 && forall pd | pd in ParentTasks(edges, id) :: root <= pd.0 < id
  {
    forall id: TaskId | root < id < bound
      ensures |ParentTasks(edges, id)| == 1 && forall pd | pd in ParentTasks(edges, id) :: root <= pd.0 < id
    {
      assert HangsFrom(edges, root, id);
      var e :| e in edges && e.descendant == id && root <= e.ancestor;
      SoleParent(edges, e);
    }
  }

  /**
   * After a successful call the root has no parent row, and every child it
   * created has exactly one, from a task created earlier in the same call.
   */
  lemma SaveTasksOneParent(db: Db, user: UserId, request: Spec, now: int)
    requires Wf(db) && Valid(request.payload)
    ensures var r := SaveTasks(db, user, request, now).db;
            && ParentTasks(r.edges, db.nextId) == {}
            && forall id: TaskId | db.nextId < id < r.nextId ::
                 |ParentTasks(r.edges, id)| == 1 && forall pd | pd in ParentTasks(r.edges, id) :: db.nextId <= pd.0 < id
  {
    var r := SaveTasks(db, user, request, now).db;
    NewRowsShaped(db, user, request, now);
    SaveTasksKeepsWf(db, user, request, now);
    SaveTasksHanging(db, user, request, now);
    OneParentEach(r.edges, db.nextId, r.nextId);
  }

  /**
   * Depth is the nesting level: along any chain of rows from the created
   * root, the row reaching the k-th task down carries depth k - 1.
   */
  lemma SaveTasksDepthIsLevel(db: Db, user: UserId, request: Spec, now: int, path: seq<TaskId>, e: Edge)
    requires Wf(db) && Valid(request.payload)
    requires |path| >= 2 && path[0] == db.nextId
    requires IsPath(SaveTasks(db, user, request, now).db.edges, path)
    requires e in SaveTasks(db, user, request, now).db.edges
    requires e.ancestor == path[|path| - 2] && e.descendant == path[|path| - 1]
    ensures e.depth == |path| - 2
  {
    var r := SaveTasks(db, user, request, now).db;
    SaveTasksKeepsWf(db, user, request, now);
    NewRowsShaped(db, user, request, now);
    DepthIsLevel(r.edges, path, e);
  }

  /** Descending from `root` reaches every id that hangs below it. */
  lemma {:induction false} ReachHanging(edges: set<Edge>, root: TaskId, bound: TaskId, i: TaskId)
    requires Increasing(edges) && Below(edges, bound) && Hanging(edges, root, bound)
    requires root < i < bound
    ensures i in NestedChildren(edges, root, bound)
    decreases i
  {
    assert HangsFrom(edges, root, i);
    var e :| e in edges && e.descendant == i && root <= e.ancestor;
    if e.ancestor == root {
      assert i in Children(edges, root);
    } else {
      ReachHanging(edges, root, bound, e.ancestor);
      NestedStep(edges, root, e.ancestor, i, bound);
    }
  }

  /** `getNestedChildren` on the created root reaches exactly the other tasks the call created. */
  lemma SaveTasksNestedChildren(db: Db, user: UserId, request: Spec, now: int)
    requires Wf(db) && Valid(request.payload)
    ensures var r := SaveTasks(db, user, request, now).db;
            && Increasing(r.edges) && Below(r.edges, r.nextId)
            && forall id :: id in NestedChildren(r.edges, db.nextId, r.nextId) <==> db.nextId < id < r.nextId
  {
    var r := SaveTasks(db, user, request, now).db;
    var root := db.nextId;
    SaveTasksKeepsWf(db, user, request, now);
    SaveTasksHanging(db, user, request, now);
    forall i | root < i < r.nextId ensures i in NestedChildren(r.edges, root, r.nextId) {
      ReachHanging(r.edges, root, r.nextId, i);
    }
  }

  /** An invalid child is skipped together with its whole subtree; its later siblings are still saved. */
  lemma InvalidChildSkipped(db: Db, user: UserId, now: int, parent: TaskId, child: Spec, rest: seq<Spec>, depth: int)
    requires parent < db.nextId && !Valid(child.payload)
    ensures Prune([child] + rest) == Prune(rest)
    ensures SaveChildren(db, user, now, parent, [child] + rest, depth)
            == SaveChildren(db, user, now, parent, rest, depth)
  {
    assert ([child] + rest)[1..] == rest;
  }

  /** A spec whose payload carries exactly the given fields. */
  function Unparse(nodes: seq<Node>): (r: seq<Spec>)
    ensures |r| == |nodes|
    decreases nodes
  {
    if |nodes| == 0 then [] else [Spec(ToPayload(nodes[0].fields), Unparse(nodes[0].children))] + Unparse(nodes[1..])
  }

  /** Every node of the forest carries fields the rules accept. */
  predicate AllOk(nodes: seq<Node>)
    decreases nodes
  {
    forall i | 0 <= i < |nodes| :: FieldsOk(nodes[i].fields) && AllOk(nodes[i].children)
  }

  /** Pruning keeps a forest of valid specs whole: nothing is dropped, every field is kept. */
  lemma {:induction false} PruneKeepsValid(nodes: seq<Node>)
    requires AllOk(nodes)
    ensures Prune(Unparse(nodes)) == nodes
    decreases nodes
  {
    if |nodes| > 0 {
      var specs := Unparse(nodes);
      assert specs[0] == Spec(ToPayload(nodes[0].fields), Unparse(nodes[0].children));
      assert specs[1..] == Unparse(nodes[1..]);
      ValidateRoundTrip(nodes[0].fields);
      PruneKeepsValid(nodes[0].children);
      assert AllOk(nodes[1..]) by {
        forall i | 0 <= i < |nodes[1..]| ensures FieldsOk(nodes[1..][i].fields) && AllOk(nodes[1..][i].children) {
          assert nodes[1..][i] == nodes[i + 1];
        }
      }
      PruneKeepsValid(nodes[1..]);
    }
  }

  /**
   * The worked example: a root with one valid child gives two tasks and a
   * single row from the root to the child at depth 0.
   */
  lemma RootWithOneChild(db: Db, user: UserId, now: int)
    requires Wf(db)
    ensures var root := ToPayload(Fields(Todo, 3, "A", "d"));
            var child := ToPayload(Fields(Todo, 1, "B", "d2"));
            var r := SaveTasks(db, user, Spec(root, [Spec(child, [])]), now);
            && r.result == Success(db.nextId)
            && r.db.nextId == db.nextId + 2
            && r.db.edges == db.edges + {Edge(db.nextId, db.nextId + 1, 0)}
  {
    var root := ToPayload(Fields(Todo, 3, "A", "d"));
    var child := ToPayload(Fields(Todo, 1, "B", "d2"));
    assert !Blank("A") by { assert "A"[0] !in TrimChars; }
    assert !Blank("B") by { assert "B"[0] !in TrimChars; }
    assert !Blank("d") by { assert "d"[0] !in TrimChars; }
    assert !Blank("d2") by { assert "d2"[0] !in TrimChars; }
    ValidateRoundTrip(Fields(Todo, 3, "A", "d"));
    ValidateRoundTrip(Fields(Todo, 1, "B", "d2"));
    var specs := [Spec(child, [])];
    assert specs[0].payload == child && specs[0].children == [] && specs[1..] == [];
    assert Validate(child) == Success(Fields(Todo, 1, "B", "d2"));
    assert Prune([]) == [];
    var nodes := Prune(specs);
    assert nodes == [Node(Fields(Todo, 1, "B", "d2"), [])];
    assert Flatten(nodes) == [Fields(Todo, 1, "B", "d2")];
    assert Layout(nodes, db.nextId, 0, db.nextId + 1) == {Edge(db.nextId, db.nextId + 1, 0)};
  }
}
